=== FILE: README.md ===
# pyclimax, modelled in Dafny

pyclimax is a Python client for the Climax home-automation hub. This project
models its device-state and change-notification logic:

- **Controller** (`pyclimax/__init__.py`). `get_devices` validates a device-list
  response and turns each `senrows` record into a device object classified by
  its numeric `type`. `get_changed_devices` compares a fresh list with the
  previous one. It joins each new device to the first old device whose id
  *contains* the new id, and reports devices with no match or a different snapshot.
- **Devices**. A device is built with a synthesised display name. It takes updates
  under a truthiness-gated merge, answers capability questions, and reads its
  switch state and dimmer level out of the `status` text.
- **Subscription registry** (`pyclimax/subscribe.py`). Two multimaps (id → device
  objects, device object → callbacks) are kept by `register` and `unregister`.
  `_event` and `_event_device` dispatch a batch of changes, and `_run_poll_server`
  is modelled as a state machine over a schedule of poll outcomes and `stop()` calls.
- **Legacy client** (`pyclimax/climax.py`). An earlier variant classifies by
  substrings of `type_f` and does no response validation.

Python behaviour is modelled explicitly:
- truthiness;
- `str()`;
- `dict.get`, where a missing key and JSON null both read as None;
- `str.strip(chars)`;
- ASCII `lower()`;
- `int()` over ASCII digits with surrounding whitespace, sign and `_` digit groups;
- `x in s` on strings;
- `list.remove`, which removes the first occurrence and raises ValueError when the item is absent;
- defaultdict side effects.

Exceptions are the `Fault` values of `Wrappers`:
- `Transport` is `requests.RequestException`;
- `Protocol` is `PyclimaxError`;
- `TypeMismatch` is TypeError;
- `MissingAttribute` is AttributeError;
- `BadValue` is ValueError.

The HTTP response is an abstract datatype (`Controller.Response`). Its cases are:
- the transport failed;
- the body was empty;
- the body did not decode;
- the body decoded to a non-object, or to an object with or without `senrows`;
- `senrows` is not a list, or holds records and non-records.

A `senrows` value that is not a list but that Python can still iterate (a string, an object) is given as a list of non-record items. Those items are its characters or keys, which is what the loop sees.

Module layout:
`wrappers.dfy`, `text.dfy` (string helpers), `seqs.dfy` (sequence helpers),
`snapshots.dfy`, `devices.dfy`, `controller.dfy`, `legacy.dfy`, `subscription.dfy`, `poll.dfy`.

Where the module layout departs from the source: both clients use the same `update`, `get_value` and
`get_strict_value` code. They are modelled once, in `Snapshots`, and shared.
The display-name rule is likewise shared (`Devices.DisplayName`). The main client
passes it the numeric `type`, the legacy client the `type_f` text.

## Model

| member | source | states |
|---|---|---|
| Controller.Validate | pyclimax/__init__.py:152-174 | A transport failure stays a transport failure. An empty body, an undecodable body, a non-object, or an object without `senrows` all fail with PyclimaxError. Exactly the objects carrying `senrows` pass, and their `senrows` value is returned |
| Controller.BuildAll | pyclimax/__init__.py:177-191 | The devices built are one per record, in record order, each from its record. The loop stops exactly at the first item that is not a record (AttributeError) |
| Controller.GetDevices | pyclimax/__init__.py:140-193 | A validation failure leaves the stored list as it was and reports the validation error. A `senrows` that is not a list raises TypeError after the stored list was reset to empty. Success happens exactly when every item is a record, and the stored list is then the result |
| Controller.GetDevicesClassifies | pyclimax/__init__.py:176-191 | On a list of records the fetch succeeds with one device per record, in order, holding that record and classified by its `type` code; the stored list becomes that list |
| Devices.Classify | pyclimax/__init__.py:180-189 | Dimmer iff type is 53, Switch iff 48, Sensor iff 20 or 50, otherwise generic |
| Devices.DisplayName | pyclimax/__init__.py:272-279 | The name is always truthy. A truthy `name` is kept. Otherwise the name is "Climax " + str(type) + " " + str(id) when the type is truthy, else "Climax Device " + str(id) |
| Devices.Build | pyclimax/__init__.py:264-279 | A device object holds its record as state, its `id` as device id, the given type and class, and the display name built from the record's `name`, the type and the `id`, which is always truthy |
| Devices.FromRecord | pyclimax/__init__.py:178-189 | A record becomes a device whose state is the record, whose type attribute is the record's `type`, whose class follows `Classify`, and whose name is the display name of the record's `name`, `type` and `id` |
| Devices.UpdateDevice | pyclimax/__init__.py:358-364 | An update changes only the JSON state. Id, type, name and class stay as built. The state keeps its keys, takes each incoming value whose current value is truthy, and keeps every other value |
| Devices.UpdateDeviceAllKeepsAttributes | pyclimax/__init__.py:264-279 | Over any run of updates, the id, type, name and class attributes never change |
| Devices.CapabilitiesMatchClass | pyclimax/__init__.py:367-384 | `is_dimmable` iff the device was built as a dimmer; `has_power` iff a switch; `has_temperature` or `has_energy` iff a sensor; no update changes class or dimmability; `has_battery` iff the record's `battery` is not None, and no update can give a battery to a device built without one |
| Devices.BatteryNeverAppears | pyclimax/__init__.py:387-389 | If `has_battery` holds after any run of updates, it held before them: None is falsy, so the update rule never overwrites it |
| Snapshots.Get | pyclimax/__init__.py:341-345 | The strict lookup returns the stored value for a present key and None for a missing one |
| Snapshots.GetValue | pyclimax/__init__.py:331-339 | `get_value` reads the field under the lower-cased name, and None when there is none. For a name already in lower case it is the strict lookup |
| Snapshots.GetValueCaseBlind | pyclimax/__init__.py:331-339 | `get_value` gives the same answer for any two names with the same lower-case form. The legacy client's `get_value` (pyclimax/climax.py lines 318-332) is the same code |
| Snapshots.GetValueIgnoresUpperKeys | pyclimax/__init__.py:331-339 | A field whose key holds an upper-case letter is never seen by `get_value`: removing it changes no read |
| Snapshots.Update | pyclimax/__init__.py:358-364 | The key set is unchanged. A key takes the incoming value iff it is incoming and its current value is truthy. A falsy field is frozen, and every other field keeps its value |
| Snapshots.UpdateIdempotent | pyclimax/__init__.py:358-364 | Applying the same incoming record twice equals applying it once. The legacy client's `update` (pyclimax/climax.py lines 345-351) is the same code |
| Snapshots.UpdateNeutral | pyclimax/__init__.py:358-364 | An incoming record equal to the current state, or an empty one, changes nothing |
| Snapshots.UpdateAllFreezes | pyclimax/__init__.py:358-364 | Over any run of updates the key set never changes, and a field holding a falsy value keeps it forever |
| Devices.StatusIsOn | pyclimax/__init__.py:438-441 | A string status is "on" iff it contains "On". Any other status raises TypeError |
| Devices.IsSwitchedOn | pyclimax/__init__.py:431-441 | Only switches and dimmers have the property. For them it is TypeError exactly on a non-string status, and otherwise true iff "On" is a substring of the status |
| Devices.StatusLevel | pyclimax/__init__.py:494-504 | A non-string status raises AttributeError, because the first strip is outside the `try`. Otherwise the result is the integer left after stripping `O`, `n`, space and `(` and then `%` and `)` from both ends, or 0 when that is not an integer |
| Devices.Level | pyclimax/__init__.py:494-504 | Only dimmers have `level`, read with the shared status rule. For every non-negative n, a dimmer whose status is "On (n%)" has level n |
| Devices.StatusLevelRoundTrip | pyclimax/__init__.py:494-504 | For every non-negative integer n, a status "On (n%)" reads back as level n and as switched on |
| Devices.PercentLevelRoundTrip | pyclimax/__init__.py:494-504 | For every non-negative integer n, a status "n%" reads back as level n |
| Devices.StatusOff | pyclimax/__init__.py:494-504 | The status "Off" reads as level 0 and as not switched on |
| Devices.FindById | pyclimax/__init__.py:128-138 | The result is the first device, in list order, whose id equals the one asked for, or none exactly when no device has that id |
| Devices.FindByName | pyclimax/__init__.py:109-119 | The result is the first device, in list order, whose name equals the one asked for, or none exactly when no device has that name |
| Controller.DeviceById | pyclimax/__init__.py:121-138 | A fetch, then the first device with that id. It fails exactly when the fetch fails, with the fetch's error, and the stored list is whatever the fetch left. A response that fails validation raises the validation error (RequestException for a transport failure, PyclimaxError otherwise) and leaves the stored list as it was |
| Controller.DeviceByName | pyclimax/__init__.py:102-119 | A fetch, then the first device with that name. It fails exactly when the fetch fails, with the fetch's error, and the stored list is whatever the fetch left. A response that fails validation raises the validation error (RequestException for a transport failure, PyclimaxError otherwise) and leaves the stored list as it was |
| Controller.FirstMatch | pyclimax/__init__.py:228-233 | The inner loop raises only TypeError, and always does on a non-string id against a non-empty list. Against an empty list it finds nothing, without raising. A match it finds is a listed device whose id contains the new id; finding none means no listed id contains it |
| Controller.ChangedDevices | pyclimax/__init__.py:225-242 | The comparison raises only TypeError. It reports only fetched devices, never more than were fetched, and against an empty previous list it reports the whole fetched list |
| Controller.IdIn | pyclimax/__init__.py:231 | `a in b` on two ids raises TypeError unless both are strings, and is otherwise the substring test |
| Controller.FirstMatchMeaning | pyclimax/__init__.py:228-233 | With string ids, the join finds no old device iff no old id contains the new id. Otherwise it finds the first old device, in list order, whose id contains the new id |
| Controller.DecisionMeaning | pyclimax/__init__.py:227-240 | With string ids, a new device is reported iff it has no match or its snapshot differs from the first match's |
| Controller.ChangedDevicesMeaning | pyclimax/__init__.py:225-242 | With string ids the result is exactly the new devices, in order, for which the report condition holds |
| Controller.ChangedDevicesIsSubsequence | pyclimax/__init__.py:225-242 | The result is a subsequence of the new list in the same order. It adds no device more often than it occurs there, and contains each new device that meets the report condition |
| Controller.EverythingIsNewAtFirst | pyclimax/__init__.py:227-240 | With an empty previous list, every new device is reported |
| Controller.UnchangedReportsNothing | pyclimax/__init__.py:230-240 | If the new list has the same snapshots as the old one, ids are distinct strings, and no id is a substring of a different id, nothing is reported |
| Controller.SubstringJoinMisreports | pyclimax/__init__.py:231 | With ids "ZB:12" and "ZB:1", fetching the same two devices again reports the second one: it is joined to the first device, whose id contains its own |
| Controller.SubstringJoinIsExactWithoutNesting | pyclimax/__init__.py:230-240 | When no new id is a substring of a different old id, the substring join gives the same result as a join on equal ids |
| Controller.MatchesAgree | pyclimax/__init__.py:230-233 | Under the same condition, the first substring match is the first exact match |
| Controller.GetChangedDevices | pyclimax/__init__.py:215-242 | The stored list is what the fetch left. A failed fetch passes its error through. After a successful fetch, the result compares the fetched list with the list stored before the call; with string ids it is exactly the fetched devices the report condition selects, in order |
| Legacy.Classify | pyclimax/climax.py:147-159 | Dimmer iff `type_f` contains "Dimmer". Switch iff it does not but contains "Power Switch Meter". Sensor iff it contains neither but contains "Temperature Sensor" or "Power Meter". Otherwise generic |
| Legacy.FromRecord | pyclimax/climax.py:251-266 | A record whose `type_f` is not a string raises TypeError. Otherwise the device holds the record, uses `type_f` as its type and in its synthesised name, and is classified by substring |
| Legacy.BuildAll | pyclimax/climax.py:146-161 | The devices built match the records one to one, in order. The loop ends early exactly on an error. It ends at the first item that is not a record, raising AttributeError, or at the first record whose `type_f` is not a string, raising TypeError |
| Legacy.GetDevices | pyclimax/climax.py:138-161 | A transport failure or an undecodable body leaves the stored list. A non-object body clears it and raises AttributeError. A missing `senrows` clears it and raises TypeError. Errors are never PyclimaxError, and on success the stored list is the result |
| Legacy.GetDevicesClassifies | pyclimax/climax.py:143-161 | On records that all carry a `type_f` text, there is one device per record, in order, classified by that text |
| Legacy.AllBuilt | pyclimax/climax.py:145-159 | Records that all carry a `type_f` text build without error |
| Legacy.MissingTypeLeavesPartialList | pyclimax/climax.py:143-161 | A record without `type_f` raises TypeError and leaves the stored list holding exactly the devices built before it |
| Legacy.PrefixBuilt | pyclimax/climax.py:145-159 | The loop stops with TypeError at the first record without `type_f`, after building one device per earlier record |
| Legacy.IsDimmable | pyclimax/climax.py:353-356 | TypeError on a non-string type; otherwise dimmable iff the type contains "Dimmer" |
| Legacy.DimmableMatchesClass | pyclimax/climax.py:353-356 | Every device the legacy fetch builds answers `is_dimmable` without error, and answers it exactly when it was classified a dimmer |
| Legacy.Level | pyclimax/climax.py:368-380 | Every device has `level`, with the same strip-then-parse rule. It fails exactly when the status is not a string, and a status "On (n%)" reads as n for every non-negative n |
| Legacy.IsSwitchedOn | pyclimax/climax.py:458-467 | Only switches and dimmers have the method. For them it is TypeError on a non-string status, else "On" is a substring of the status |
| Legacy.DeviceById | pyclimax/climax.py:119-136 | The legacy fetch, then the first device with that id. It fails exactly when the fetch fails, with the fetch's error, which is never PyclimaxError |
| Legacy.DeviceByName | pyclimax/climax.py:100-117 | The legacy fetch, then the first device with that name. It fails exactly when the fetch fails, with the fetch's error, which is never PyclimaxError |
| Subscription.FreshIsWellFormed | pyclimax/subscribe.py:21-26 | The empty registry is well formed. Well formed means every device object sits in its own id's bucket once per callback registered for it |
| Subscription.Register | pyclimax/subscribe.py:35-41 | A missing device changes nothing. Otherwise the device is appended to its id bucket and the callback to its list, duplicates kept. Every other id's bucket and every other device's callback list is unchanged, and the only key either map can gain is the device's own id or the device itself. So no other id gains a bucket, which `_event` would observe |
| Subscription.RegisterKeepsWellFormed | pyclimax/subscribe.py:40-41 | Registering keeps the two maps in agreement |
| Subscription.Unregister | pyclimax/subscribe.py:49-55 | A missing device changes nothing. An absent callback raises ValueError: the callbacks entry is created empty and the id bucket is untouched. Otherwise the first copy of the callback is removed, then the first copy of the device, and a device missing from its bucket raises ValueError. Every other id's bucket and every other device's list is unchanged, and the only key either map can gain is the one the defaultdict lookup creates |
| Subscription.UnregisterKeepsWellFormed | pyclimax/subscribe.py:54-55 | Unregistering keeps the two maps in agreement. In a well-formed registry it fails exactly when the callback was never registered for the device |
| Subscription.RegisterThenUnregister | pyclimax/subscribe.py:40-55 | `register` then `unregister` of a pair succeeds and restores both lists as multisets. Each list comes back unchanged if its item was absent before; otherwise the item's first copy moves to the end. The id bucket stays in place |
| Subscription.InvokeAll | pyclimax/subscribe.py:75-84 | Each callback is called once, in order, on the same device state, whether or not earlier calls raised |
| Subscription.EventDevice | pyclimax/subscribe.py:66-84 | Only the device's own state changes, and it receives the update rule. Then every callback registered for the device is called once, in registration order, each seeing the updated state |
| Subscription.DispatchBucket | pyclimax/subscribe.py:63-64 | Every device object in the bucket receives the update and every callback of each is called on its updated state. Device objects outside the bucket keep their state. The log is exactly, in bucket order, each device object's callbacks in registration order, each called once on that object's updated state |
| Subscription.Processed | pyclimax/subscribe.py:58-62 | The changes `_event` gets through form a prefix of the list, all with registered ids, and it stops only at an id with no bucket |
| Subscription.Event | pyclimax/subscribe.py:57-64 | The set of device objects is unchanged, and each one ends holding its state with the update of every processed change for its id applied in order. Every call is of a callback registered for its device, on a device object in the bucket of some changed id |
| Subscription.EventLog | pyclimax/subscribe.py:57-84 | The log of a notification is exactly, change by change over the processed prefix, the log of dispatching that change's bucket on the states the earlier changes left, so no call is duplicated, dropped or reordered |
| Subscription.EveryChangeIsDispatched | pyclimax/subscribe.py:57-84 | When the ids of changes 0..k all have buckets, every callback of every device object in change k's bucket is called, on that object's state after changes 0..k |
| Subscription.UnknownIdEndsBatch | pyclimax/subscribe.py:60-62 | A changed device whose id has no bucket ends the batch: the result is as if the list stopped just before it |
| Subscription.EmptyBucketIsSkipped | pyclimax/subscribe.py:60-64 | A changed device whose id has an empty bucket is passed over: the result is as if it were not in the list |
| Subscription.UnregisteredCallbackIsNeverCalled | pyclimax/subscribe.py:54-75 | Once a callback's only registration for a device is removed, no dispatch calls it on that device |
| Subscription.EmptyBucketLeftBehind | pyclimax/subscribe.py:40-62 | `register` then `unregister` of a device whose id had no bucket leaves an empty one behind. A batch that used to end at that id now passes over it |
| Poll.Catch | pyclimax/subscribe.py:108-120 | A RequestException and a PyclimaxError are each caught as their own case; any other error is unexpected; a result is a poll |
| Poll.Step | pyclimax/subscribe.py:121-135 | Changes are dispatched only if non-empty and the flag is clear. A caught error sleeps `SUBSCRIPTION_RETRY` = 3 s and continues. A poll sleeps 1 s only while not exiting. An unexpected error ends the thread. The loop stops iff exiting and nothing unexpected happened |
| Poll.Run | pyclimax/subscribe.py:104-137 | Each dispatched change list is non-empty and comes from a poll during which `stop()` was not called. A loop started with the flag set dispatches nothing |
| Poll.DispatchedAreLivePolls | pyclimax/subscribe.py:104-137 | Started normally, the dispatched lists are exactly the non-empty lists the calls returned before the first `stop()` or unexpected error, each once and in order |
| Poll.LiveChangesAreDispatched | pyclimax/subscribe.py:107-130 | Started normally, every non-empty change list a call returns before any `stop()` and before any unexpected error is dispatched |
| Poll.ExitingRunsNothing | pyclimax/subscribe.py:107 | A loop whose flag is already set stops at once, doing nothing |
| Poll.StopIsFinal | pyclimax/subscribe.py:98-130 | After `stop()`, nothing later in the schedule affects the run, and the loop is never still running |
| Poll.CrashesIffUnexpectedBeforeStop | pyclimax/subscribe.py:107-120 | The thread ends by an exception iff some call raises an unexpected error before any `stop()` |
| Poll.KeepsRunning | pyclimax/subscribe.py:107-135 | With no `stop()` and no unexpected error the loop is still running after any schedule |
| Poll.Iterate | pyclimax/subscribe.py:107-130 | One pass leaves the registry as it was and the set of device objects unchanged. Its outcome is the loop body's decision on what `get_changed_devices` returned or raised. It dispatches exactly when `stop()` did not come during the call and the call returned a non-empty list, and then the store and log are those of notifying that list |
| Poll.PassDispatchesEveryChange | pyclimax/subscribe.py:107-130 | In one live pass, when the ids of changes 0..k all have buckets, every callback of every device object in change k's bucket is called, on that object's state after changes 0..k |
| Poll.NonTextIdCrashesLoop | pyclimax/__init__.py:231 | A fetched device with a non-string id, compared against a non-empty stored list, raises TypeError in `get_changed_devices`. The poll loop does not catch it, so the thread ends |
| Poll.FailedFetchRetries | pyclimax/subscribe.py:111-135 | A failed fetch changes nothing, dispatches nothing, and pauses for the retry interval before continuing |

## Left out

- HTTP plumbing: `post_request`, `get_request`, `raise_for_status`, `refresh`, `refresh_data`, `set_device_value`, and the switch and brightness commands. They are network I/O, so a response is an input datatype.
- Threads and timing: `start`, `join`, `threading.Thread`, and real `time.sleep`. `stop()` is an event in the schedule the poll loop observes, and each pause is recorded as seconds slept. Races between `register` and dispatch are not modelled.
- `jsondiff.diff` is modelled as inequality of the two snapshots. That is the truth value of its result for flat records.
- Floating point: `power`, `temperature`, `energy`, `get_brightness` and `set_brightness`. These parse IEEE floats and use Python's rounding.
- Devices.StatusLevel: `int()` on a `str` is modelled as Python 3.6 to 3.10 reads it, over ASCII digits only. Python also accepts other Unicode decimal digits and Unicode whitespace. On Python 2, which the package still supports (the `sys.version_info` branch of `__repr__`, pyclimax/__init__.py line 282), `int()` rejects `_` between digits, so "On (1_0%)" reads as 0 there but as 10 here. On Python 3.11 and later, `int()` raises ValueError on a string of more than 4300 digits, so such a level reads as 0 there. Devices.Level, Legacy.Level, Devices.StatusLevelRoundTrip and Devices.PercentLevelRoundTrip inherit both differences.
- Devices.Level: its "On (n%)" clause follows `int()` as Python 3.6 to 3.10 reads it. On Python 3.11 and later it holds only for n of at most 4300 digits.
- Legacy.Level: the same as Devices.Level, since it uses the same strip-then-parse rule.
- Devices.StatusLevelRoundTrip: stated for non-negative levels only. Dimmer levels are percentages. A negative number in the status is still parsed by `ParseInt`, with its sign. It follows `int()` as Python 3.6 to 3.10 reads it; on Python 3.11 and later it holds only for n of at most 4300 digits.
- Devices.PercentLevelRoundTrip: stated for non-negative levels only, for the same reason. The interpreter-version limits of Devices.StatusLevelRoundTrip apply as well.
- Snapshots.GetValueCaseBlind: `lower()` is modelled on ASCII letters only.
- JSON values are scalars: null, booleans, integers and strings. Nested objects, arrays and floats in a record are not modelled.
- Python's `1 == True` and `53 == 53.0` equalities are not modelled: `Bool` and `Int` values never compare equal. This affects such mixed-type records in three places. Classification by `type` and lookup by id treat them as different. `jsondiff` compares leaves with `==`, so a field going from 1 to true is no change in Python but a change for `Controller.ShouldReport` and `Controller.ChangedDevices`. And `_event`'s bucket lookup `self._devices.get(device_id)` (pyclimax/subscribe.py line 60) finds the bucket of id 1 for a change with id true, while `Subscription.Registry`'s map keeps them apart.
- Object identity: a device object is a handle with an identity and its state lives in a store. Aliasing between the controller's list and the registered objects is not modelled.
- Callbacks are opaque. One either raises or it does not; re-entrant calls into the registry from a callback are not modelled.
- `_event_device`'s `device is None` test never fires, because `register` refuses a falsy device.
- The global controller singleton (`init_controller`, `get_controller`), logging, `__repr__` and its `sys.version_info` branch are left out.
- `pyclimax/test_server/server.py`, `pyclimax/test_server/test.py` and `setup.py` are a demo server, a demo script and packaging; they are not part of this model.

=== FILE: controller.dfy ===
/** The controller of pyclimax/__init__.py: fetching and validating the device
    list (`get_devices`), the change detector (`get_changed_devices`), and
    lookups that fetch first. The stored device list (`self.devices`) is passed
    in and handed back, so that which failures replace it is visible. */
module Controller {
  import opened Wrappers
  import opened Text
  import opened Snapshots
  import opened Devices
  import Seqs

  /** What the hub's `deviceListGet` call produced, as far as the client can tell. */
  datatype Response =
    | TransportFailed    // requests raised, or raise_for_status did (the legacy client never calls it)
    | EmptyBody          // status 200 with an empty text
    | Undecodable        // r.json() raised ValueError
    | Decoded(body: Body)

  /** The decoded JSON value. */
  datatype Body = NotAnObject | Object(senrows: Option<Senrows>)

  /** The value under `senrows`: a list of items, or something that cannot be
      iterated as one (null, a number). */
  datatype Senrows = NotAList | Items(items: seq<Item>)

  /** One item of the list: a JSON object, or anything else (which has no `.get`). */
  datatype Item = Record(fields: Snapshot) | NotARecord

  /** The checks `get_devices` makes before touching the stored list. */
  function Validate(resp: Response): (r: Result<Senrows>)
    ensures resp.TransportFailed? ==> r == Failure(Transport)
    ensures r.Failure? && !resp.TransportFailed? ==> r == Failure(Protocol)
    ensures r.Success? <==> resp.Decoded? && resp.body.Object? && resp.body.senrows.Some?
    ensures r.Success? ==> r.value == resp.body.senrows.value
  {
    match resp
    case TransportFailed => Failure(Transport)
    case EmptyBody => Failure(Protocol)
    case Undecodable => Failure(Protocol)
    case Decoded(NotAnObject) => Failure(Protocol)
    case Decoded(Object(None)) => Failure(Protocol)
    case Decoded(Object(Some(rows))) => Success(rows)
  }

  predicate AllRecords(items: seq<Item>) {
    forall i :: 0 <= i < |items| ==> items[i].Record?
  }

  /** The loop of `get_devices`: one device per item, appended in order, until
      an item that is not an object raises. Returns what was appended. */
  function BuildAll(items: seq<Item>): (r: seq<Device>)
    ensures |r| <= |items|
    ensures forall i :: 0 <= i < |r| ==> items[i].Record? && r[i] == FromRecord(items[i].fields)
    ensures |r| < |items| ==> items[|r|].NotARecord?
    decreases |items|
  {
    if items == [] || items[0].NotARecord? then []
    else [FromRecord(items[0].fields)] + BuildAll(items[1..])
  }

  /** `get_devices(self)`: validate, reset the stored list, then build. Returns
      the stored list afterwards and the call's outcome. */
  function GetDevices(stored: seq<Device>, resp: Response): (out: (seq<Device>, Result<seq<Device>>))
    ensures Validate(resp).Failure? ==> out == (stored, Failure(Validate(resp).error))
    ensures resp == Decoded(Object(Some(NotAList))) ==> out == ([], Failure(TypeMismatch))
    ensures out.1.Success? ==> out.0 == out.1.value
    ensures out.1.Success? <==> Validate(resp).Success? && Validate(resp).value.Items? && AllRecords(Validate(resp).value.items)
  {
    match Validate(resp)
    case Failure(e) => (stored, Failure(e))
    case Success(NotAList) => ([], Failure(TypeMismatch))
    case Success(Items(items)) =>
      var built := BuildAll(items);
      if |built| == |items| then (built, Success(built)) else (built, Failure(MissingAttribute))
  }

  /** On a well-formed body there is one device per record, in record order,
      each of the class its numeric type selects. */
  lemma GetDevicesClassifies(stored: seq<Device>, records: seq<Snapshot>)
    ensures var items := seq(|records|, i requires 0 <= i < |records| => Record(records[i]));
      var out := GetDevices(stored, Decoded(Object(Some(Items(items)))));
      && out.1.Success?
      && |out.1.value| == |records|
      && (forall i :: 0 <= i < |records| ==> out.1.value[i].state == records[i])
      && (forall i :: 0 <= i < |records| ==>
            (out.1.value[i].kind == Dimmer <==> Get(records[i], "type") == Int(53)))
      && (forall i :: 0 <= i < |records| ==>
            (out.1.value[i].kind == Switch <==> Get(records[i], "type") == Int(48)))
      && (forall i :: 0 <= i < |records| ==>
            (out.1.value[i].kind == Sensor <==> Get(records[i], "type") in {Int(20), Int(50)}))
  {
    var items := seq(|records|, i requires 0 <= i < |records| => Record(records[i]));
    assert AllRecords(items);
  }

  // ---------------------------------------------------------------------------
  // Change detection

  /** The id a change is keyed on: read from the JSON state, not the attribute. */
  function IdOf(d: Device): Value {
    Get(d.state, "id")
  }

  /** Python's `a in b` on two ids: a substring test when both are strings,
      TypeError otherwise. */
  function IdIn(a: Value, b: Value): (r: Result<bool>)
    ensures r.Failure? <==> !(a.Str? && b.Str?)
    ensures r.Success? ==> (r.value <==> IsSubstring(a.s, b.s))
  {
    if a.Str? && b.Str? then Success(Contains(b.s, a.s)) else Failure(TypeMismatch)
  }

  /** The inner loop of `get_changed_devices`: the first prior device whose id
      contains `id`, stopping at the first comparison that raises. */
  function FirstMatch(id: Value, prior: seq<Device>): (r: Result<Option<Device>>)
    ensures r.Failure? ==> r.error == TypeMismatch
    ensures prior == [] ==> r == Success(None)
    ensures prior != [] && !id.Str? ==> r.Failure?
    ensures r.Success? && r.value.Some? ==> r.value.value in prior && IdIn(id, IdOf(r.value.value)) == Success(true)
    ensures r.Success? && r.value.None? ==> forall j :: 0 <= j < |prior| ==> IdIn(id, IdOf(prior[j])) == Success(false)
    decreases |prior|
  {
    if prior == [] then Success(None)
    else
      match IdIn(id, IdOf(prior[0]))
      case Failure(e) => Failure(e)
      case Success(true) => Success(Some(prior[0]))
      case Success(false) => FirstMatch(id, prior[1..])
  }

  /** `get_changed_devices` after the fetch: the fetched devices that have no
      match, or whose state differs from their match's (jsondiff non-empty). */
  function ChangedDevices(prior: seq<Device>, fetched: seq<Device>): (r: Result<seq<Device>>)
    ensures r.Failure? ==> r.error == TypeMismatch
    ensures r.Success? ==> |r.value| <= |fetched| && forall i :: 0 <= i < |r.value| ==> r.value[i] in fetched
    ensures prior == [] ==> r == Success(fetched)
    decreases |fetched|
  {
    if fetched == [] then Success([])
    else
      match FirstMatch(IdOf(fetched[0]), prior)
      case Failure(e) => Failure(e)
      case Success(m) =>
        match ChangedDevices(prior, fetched[1..])
        case Failure(e) => Failure(e)
        case Success(rest) =>
          assert fetched == [fetched[0]] + fetched[1..];
          assert forall i :: 0 <= i < |rest| ==> rest[i] in fetched;
          Success(if m.None? || m.value.state != fetched[0].state then [fetched[0]] + rest else rest)
  }

  /** `get_changed_devices(self)`: fetch (which replaces the stored list on
      success), then compare against the list stored before the call. */
  function GetChangedDevices(stored: seq<Device>, resp: Response): (out: (seq<Device>, Result<seq<Device>>))
    ensures out.0 == GetDevices(stored, resp).0
    ensures GetDevices(stored, resp).1.Failure? ==> out.1 == GetDevices(stored, resp).1
    ensures GetDevices(stored, resp).1.Success? ==>
              out.1 == ChangedDevices(stored, GetDevices(stored, resp).1.value)
    ensures var fetched := GetDevices(stored, resp).1;
      fetched.Success? && StringIds(stored) && StringIds(fetched.value) ==>
        out.1 == Success(Seqs.Filter(fetched.value, (d: Device) => ShouldReport(stored, d)))
  {
    var (now, r) := GetDevices(stored, resp);
    assert r.Success? && StringIds(stored) && StringIds(r.value) ==>
             ChangedDevices(stored, r.value) == Success(Seqs.Filter(r.value, (d: Device) => ShouldReport(stored, d))) by {
      if r.Success? && StringIds(stored) && StringIds(r.value) {
        ChangedDevicesMeaning(stored, r.value);
      }
    }
    match r
    case Failure(e) => (now, Failure(e))
    case Success(ds) => (now, ChangedDevices(stored, ds))
  }

  // ---------------------------------------------------------------------------
  // What the change detector means

  predicate StringIds(ds: seq<Device>) {
    forall i :: 0 <= i < |ds| ==> IdOf(ds[i]).Str?
  }

  function IdText(d: Device): string {
    if IdOf(d).Str? then IdOf(d).s else ""
  }

  /** The reporting rule, stated over positions: a device is reported when no
      prior id contains its id, or when the first prior device whose id does has a
      different state. */
  ghost predicate ShouldReport(prior: seq<Device>, d: Device) {
    || (forall j :: 0 <= j < |prior| ==> !IsSubstring(IdText(d), IdText(prior[j])))
    || (exists j :: 0 <= j < |prior| && IsSubstring(IdText(d), IdText(prior[j]))
          && (forall i :: 0 <= i < j ==> !IsSubstring(IdText(d), IdText(prior[i])))
          && prior[j].state != d.state)
  }

  lemma {:induction false} FirstMatchMeaning(d: Device, prior: seq<Device>)
    requires IdOf(d).Str? && StringIds(prior)
    ensures FirstMatch(IdOf(d), prior).Success?
    ensures FirstMatch(IdOf(d), prior).value.None? <==>
              forall j :: 0 <= j < |prior| ==> !IsSubstring(IdText(d), IdText(prior[j]))
    ensures FirstMatch(IdOf(d), prior).value.Some? ==>
              exists j :: 0 <= j < |prior| && prior[j] == FirstMatch(IdOf(d), prior).value.value
                && IsSubstring(IdText(d), IdText(prior[j]))
                && forall i :: 0 <= i < j ==> !IsSubstring(IdText(d), IdText(prior[i]))
    decreases |prior|
  {
    if prior != [] {
      assert IdOf(prior[0]).Str?;
      if !IsSubstring(IdText(d), IdText(prior[0])) {
        FirstMatchMeaning(d, prior[1..]);
        var m := FirstMatch(IdOf(d), prior[1..]).value;
        if m.Some? {
          var j :| 0 <= j < |prior[1..]| && prior[1..][j] == m.value
                 && IsSubstring(IdText(d), IdText(prior[1..][j]))
                 && forall i :: 0 <= i < j ==> !IsSubstring(IdText(d), IdText(prior[1..][i]));
          assert prior[j + 1] == m.value;
          assert forall i :: 0 <= i < j + 1 ==> !IsSubstring(IdText(d), IdText(prior[i])) by {
            forall i | 0 <= i < j + 1 ensures !IsSubstring(IdText(d), IdText(prior[i])) {
              if i > 0 { assert prior[i] == prior[1..][i - 1]; }
            }
          }
        } else {
          forall j | 0 <= j < |prior| ensures !IsSubstring(IdText(d), IdText(prior[j])) {
            if j > 0 { assert prior[j] == prior[1..][j - 1]; }
          }
        }
      }
    }
  }

  /** The reported-or-not decision of one device, in terms of ShouldReport. */
  lemma DecisionMeaning(d: Device, prior: seq<Device>)
    requires IdOf(d).Str? && StringIds(prior)
    ensures FirstMatch(IdOf(d), prior).Success?
    ensures var m := FirstMatch(IdOf(d), prior).value;
      (m.None? || m.value.state != d.state) <==> ShouldReport(prior, d)
  {
    FirstMatchMeaning(d, prior);
    var m := FirstMatch(IdOf(d), prior).value;
    if m.Some? {
      var j :| 0 <= j < |prior| && prior[j] == m.value
             && IsSubstring(IdText(d), IdText(prior[j]))
             && forall i :: 0 <= i < j ==> !IsSubstring(IdText(d), IdText(prior[i]));
      if ShouldReport(prior, d) {
        var j' :| 0 <= j' < |prior| && IsSubstring(IdText(d), IdText(prior[j']))
                 && (forall i :: 0 <= i < j' ==> !IsSubstring(IdText(d), IdText(prior[i])))
                 && prior[j'].state != d.state;
        assert j' == j;
      }
    }
  }

  /** With string ids throughout, the detector never raises and returns exactly
      the fetched devices ShouldReport selects, in their order. */
  lemma {:induction false} ChangedDevicesMeaning(prior: seq<Device>, fetched: seq<Device>)
    requires StringIds(prior) && StringIds(fetched)
    ensures ChangedDevices(prior, fetched) == Success(Seqs.Filter(fetched, (d: Device) => ShouldReport(prior, d)))
    decreases |fetched|
  {
    if fetched != [] {
      DecisionMeaning(fetched[0], prior);
      assert StringIds(fetched[1..]);
      ChangedDevicesMeaning(prior, fetched[1..]);
    }
  }

  /** Consequently the result is a subsequence of the fetched list: order kept,
      nothing reported twice, and a device is in it iff the rule selects it. */
  lemma ChangedDevicesIsSubsequence(prior: seq<Device>, fetched: seq<Device>)
    requires StringIds(prior) && StringIds(fetched)
    ensures ChangedDevices(prior, fetched).Success?
    ensures Seqs.IsSubseq(ChangedDevices(prior, fetched).value, fetched)
    ensures multiset(ChangedDevices(prior, fetched).value) <= multiset(fetched)
    ensures forall i :: 0 <= i < |fetched| ==>
              (fetched[i] in ChangedDevices(prior, fetched).value <==> ShouldReport(prior, fetched[i]))
  {
    ChangedDevicesMeaning(prior, fetched);
    var p := (d: Device) => ShouldReport(prior, d);
    Seqs.FilterIsSubseq(fetched, p);
    Seqs.SubseqMultiset(Seqs.Filter(fetched, p), fetched);
  }

  /** With nothing stored, every fetched device is reported, whatever its id. */
  lemma {:induction false} EverythingIsNewAtFirst(fetched: seq<Device>)
    ensures ChangedDevices([], fetched) == Success(fetched)
    decreases |fetched|
  {
    if fetched != [] {
      EverythingIsNewAtFirst(fetched[1..]);
      assert [fetched[0]] + fetched[1..] == fetched;
    }
  }

  /** Fetching the same devices again reports nothing, provided the hub's ids
      are unique and no id is a substring of a different one. */
  lemma {:induction false} UnchangedReportsNothing(prior: seq<Device>, fetched: seq<Device>)
    requires StringIds(prior) && StringIds(fetched)
    requires forall i, j :: 0 <= i < j < |prior| ==> IdText(prior[i]) != IdText(prior[j])
    requires forall i, j :: 0 <= i < |fetched| && 0 <= j < |prior| && IsSubstring(IdText(fetched[i]), IdText(prior[j]))
               ==> IdText(fetched[i]) == IdText(prior[j])
    requires forall i :: 0 <= i < |fetched| ==> exists j :: 0 <= j < |prior| && prior[j].state == fetched[i].state
    ensures ChangedDevices(prior, fetched) == Success([])
    decreases |fetched|
  {
    if fetched != [] {
      UnchangedHeadIsMatched(fetched[0], prior);
      assert StringIds(fetched[1..]);
      UnchangedReportsNothing(prior, fetched[1..]);
    }
  }

  /** One step of UnchangedReportsNothing: an unchanged device whose id is
      found only as itself is matched to the listed device with its state. */
  lemma UnchangedHeadIsMatched(d: Device, prior: seq<Device>)
    requires IdOf(d).Str? && StringIds(prior)
    requires forall i, j :: 0 <= i < j < |prior| ==> IdText(prior[i]) != IdText(prior[j])
    requires forall j :: 0 <= j < |prior| && IsSubstring(IdText(d), IdText(prior[j])) ==> IdText(d) == IdText(prior[j])
    requires exists j :: 0 <= j < |prior| && prior[j].state == d.state
    ensures FirstMatch(IdOf(d), prior).Success? && FirstMatch(IdOf(d), prior).value.Some?
    ensures FirstMatch(IdOf(d), prior).value.value.state == d.state
  {
    FirstMatchMeaning(d, prior);
    var j0 :| 0 <= j0 < |prior| && prior[j0].state == d.state;
    assert IdText(prior[j0]) == IdText(d);
    assert IsSubstring(IdText(d), IdText(prior[j0])) by {
      assert IdText(d) <= IdText(prior[j0])[0..];
    }
    var m := FirstMatch(IdOf(d), prior).value;
    var j :| 0 <= j < |prior| && prior[j] == m.value && IsSubstring(IdText(d), IdText(prior[j]))
           && forall i :: 0 <= i < j ==> !IsSubstring(IdText(d), IdText(prior[i]));
    assert IdText(prior[j]) == IdText(d);
    assert j == j0;
  }

  /** The substring join misfires: re-fetching two unchanged devices whose ids
      are "ZB:12" and "ZB:1" reports the second, because "ZB:1" is found inside
      "ZB:12" first and the states differ. */
  lemma SubstringJoinMisreports()
    ensures var a := Device(map["id" := Str("ZB:12"), "status" := Str("On")], Str("ZB:12"), Int(48), Str("A"), Switch);
      var b := Device(map["id" := Str("ZB:1"), "status" := Str("Off")], Str("ZB:1"), Int(48), Str("B"), Switch);
      ChangedDevices([a, b], [a, b]) == Success([b])
  {
    var a := Device(map["id" := Str("ZB:12"), "status" := Str("On")], Str("ZB:12"), Int(48), Str("A"), Switch);
    var b := Device(map["id" := Str("ZB:1"), "status" := Str("Off")], Str("ZB:1"), Int(48), Str("B"), Switch);
    var both := [a, b];
    assert IdOf(a) == Str("ZB:12") && IdOf(b) == Str("ZB:1");
    assert "ZB:12" <= "ZB:12";
    assert "ZB:1" <= "ZB:12";
    assert a.state != b.state by { assert a.state["status"] != b.state["status"]; }
    assert FirstMatch(IdOf(a), both) == Success(Some(a));
    assert FirstMatch(IdOf(b), both) == Success(Some(a));
    var onlyB := [b];
    assert onlyB[0] == b && onlyB[1..] == [];
    assert ChangedDevices(both, onlyB[1..]) == Success([]);
    assert [b] + [] == [b];
    assert ChangedDevices(both, onlyB) == Success([b]);
    assert both[0] == a && both[1..] == onlyB;
  }

  /** Exact-id matching, the reading the detector is documented to intend. */
  function ExactMatch(id: Value, prior: seq<Device>): (r: Option<Device>)
    ensures r.Some? ==> r.value in prior && IdOf(r.value) == id
    ensures r.None? ==> forall j :: 0 <= j < |prior| ==> IdOf(prior[j]) != id
    decreases |prior|
  {
    if prior == [] then None
    else if IdOf(prior[0]) == id then Some(prior[0])
    else ExactMatch(id, prior[1..])
  }

  function ExactChangedDevices(prior: seq<Device>, fetched: seq<Device>): (r: seq<Device>)
    decreases |fetched|
  {
    if fetched == [] then []
    else
      var m := ExactMatch(IdOf(fetched[0]), prior);
      var rest := ExactChangedDevices(prior, fetched[1..]);
      if m.None? || m.value.state != fetched[0].state then [fetched[0]] + rest else rest
  }

  /** When no id contains a different id, the substring join coincides with
      the exact one. */
  lemma {:induction false} SubstringJoinIsExactWithoutNesting(prior: seq<Device>, fetched: seq<Device>)
    requires StringIds(prior) && StringIds(fetched)
    requires forall i, j :: 0 <= i < |fetched| && 0 <= j < |prior| && IsSubstring(IdText(fetched[i]), IdText(prior[j]))
               ==> IdText(fetched[i]) == IdText(prior[j])
    ensures ChangedDevices(prior, fetched) == Success(ExactChangedDevices(prior, fetched))
    decreases |fetched|
  {
    if fetched != [] {
      MatchesAgree(fetched[0], prior);
      assert StringIds(fetched[1..]);
      SubstringJoinIsExactWithoutNesting(prior, fetched[1..]);
    }
  }

  lemma {:induction false} MatchesAgree(d: Device, prior: seq<Device>)
    requires IdOf(d).Str? && StringIds(prior)
    requires forall j :: 0 <= j < |prior| && IsSubstring(IdText(d), IdText(prior[j])) ==> IdText(d) == IdText(prior[j])
    ensures FirstMatch(IdOf(d), prior) == Success(ExactMatch(IdOf(d), prior))
    decreases |prior|
  {
    if prior != [] {
      assert IdOf(prior[0]).Str?;
      if IdOf(prior[0]) == IdOf(d) {
        assert IdText(d) <= IdText(prior[0])[0..];
      } else {
        assert IdText(d) != IdText(prior[0]);
        assert StringIds(prior[1..]);
        MatchesAgree(d, prior[1..]);
      }
    }
  }

  // ---------------------------------------------------------------------------
  // Lookups that fetch

  /** `get_device_by_id`: a fresh `get_devices()` (whose failures propagate),
      then the first device with that id. */
  function DeviceById(stored: seq<Device>, resp: Response, id: Value): (out: (seq<Device>, Result<Option<Device>>))
    ensures out.0 == GetDevices(stored, resp).0
    ensures out.1.Failure? <==> GetDevices(stored, resp).1.Failure?
    ensures out.1.Failure? ==> out.1.error == GetDevices(stored, resp).1.error
    ensures out.1.Success? ==> out.1.value == FindById(out.0, id)
    ensures Validate(resp).Failure? ==> out == (stored, Failure(Validate(resp).error))
  {
    var (now, r) := GetDevices(stored, resp);
    match r
    case Failure(e) => (now, Failure(e))
    case Success(ds) => (now, Success(FindById(ds, id)))
  }

  /** `get_device_by_name`: likewise, matching on the name attribute. */
  function DeviceByName(stored: seq<Device>, resp: Response, name: Value): (out: (seq<Device>, Result<Option<Device>>))
    ensures out.0 == GetDevices(stored, resp).0
    ensures out.1.Failure? <==> GetDevices(stored, resp).1.Failure?
    ensures out.1.Failure? ==> out.1.error == GetDevices(stored, resp).1.error
    ensures out.1.Success? ==> out.1.value == FindByName(out.0, name)
    ensures Validate(resp).Failure? ==> out == (stored, Failure(Validate(resp).error))
  {
    var (now, r) := GetDevices(stored, resp);
    match r
    case Failure(e) => (now, Failure(e))
    case Success(ds) => (now, Success(FindByName(ds, name)))
  }
}

=== FILE: devices.dfy ===
/** The device objects of the client (pyclimax/__init__.py): classification by
    numeric type code, display-name synthesis, the update rule applied to a
    device, capability tests, switch state and dimmer level, and first-match
    lookup in a device list. */
module Devices {
  import opened Wrappers
  import opened Text
  import opened Snapshots
  import Seqs

  const CategoryDimmer: int := 53
  const CategoryPowerSwitchMeter: int := 48
  const CategoryTemperatureSensor: int := 20
  const CategoryPowerMeter: int := 50

  /** The Python class a record was turned into: ClimaxDevice, ClimaxSwitch,
      ClimaxDimmer (a subclass of ClimaxSwitch) or ClimaxSensor. */
  datatype Kind = Generic | Switch | Dimmer | Sensor

  /** A device object. `state` is the JSON record (`json_state`), which updates
      mutate; `deviceId`, `category` (the `type` attribute), `name` and `kind`
      are fixed when the object is built and never re-read. */
  datatype Device = Device(state: Snapshot, deviceId: Value, category: Value, name: Value, kind: Kind)

  /** The class chosen for a record's `type` code. */
  function Classify(category: Value): (k: Kind)
    ensures k == Dimmer <==> category == Int(CategoryDimmer)
    ensures k == Switch <==> category == Int(CategoryPowerSwitchMeter)
    ensures k == Sensor <==> category in {Int(CategoryTemperatureSensor), Int(CategoryPowerMeter)}
  {
    if category == Int(CategoryDimmer) then Dimmer
    else if category == Int(CategoryPowerSwitchMeter) then Switch
    else if category == Int(CategoryTemperatureSensor) || category == Int(CategoryPowerMeter) then Sensor
    else Generic
  }

  /** The name a device object carries: the record's own name when truthy,
      otherwise one made up from the type and the id. */
  function DisplayName(name: Value, category: Value, id: Value): (r: Value)
    ensures Truthy(r)
    ensures Truthy(name) ==> r == name
    ensures !Truthy(name) ==> r.Str? && "Climax " <= r.s
    ensures !Truthy(name) ==> |r.s| >= |StrOf(id)| + 8 && r.s[|r.s| - |StrOf(id)| - 1..] == " " + StrOf(id)
    ensures !Truthy(name) && Truthy(category) ==> r.s[7..|r.s| - |StrOf(id)| - 1] == StrOf(category)
    ensures !Truthy(name) && !Truthy(category) ==> r.s[7..|r.s| - |StrOf(id)| - 1] == "Device"
  {
    if Truthy(name) then name
    else
      var middle := if Truthy(category) then StrOf(category) else "Device";
      NameParts(middle, StrOf(id));
      Str("Climax " + middle + " " + StrOf(id))
  }

  lemma NameParts(middle: string, tail: string)
    ensures var s := "Climax " + middle + " " + tail;
      && |s| == |middle| + |tail| + 8
      && "Climax " <= s
      && s[7..|s| - |tail| - 1] == middle
      && s[|s| - |tail| - 1..] == " " + tail
  {
    var s := "Climax " + middle + " " + tail;
    assert s[..7] == "Climax ";
    assert s[7..|s| - |tail| - 1] == middle;
    assert s[|s| - |tail| - 1..] == " " + tail;
  }

  /** `ClimaxDevice.__init__` over a record, given the attribute read as the
      device's type and the class chosen for it. */
  function Build(item: Snapshot, category: Value, kind: Kind): (d: Device)
    ensures d.state == item && d.kind == kind && d.category == category
    ensures d.deviceId == Get(item, "id")
    ensures d.name == DisplayName(Get(item, "name"), category, Get(item, "id"))
    ensures Truthy(d.name)
  {
    Device(item, Get(item, "id"), category, DisplayName(Get(item, "name"), category, Get(item, "id")), kind)
  }

  /** One record of a device list turned into a device object, classified by
      its numeric `type`. */
  function FromRecord(item: Snapshot): (d: Device)
    ensures d.state == item && d.deviceId == Get(item, "id") && d.category == Get(item, "type")
    ensures d.kind == Classify(Get(item, "type"))
    ensures d.name == DisplayName(Get(item, "name"), Get(item, "type"), Get(item, "id"))
  {
    Build(item, Get(item, "type"), Classify(Get(item, "type")))
  }

  /** `device.update(params)`: only the JSON state moves; the id, type, name
      and class attributes stay as they were built. */
  function UpdateDevice(d: Device, params: Snapshot): (r: Device)
    ensures r.deviceId == d.deviceId && r.category == d.category && r.name == d.name && r.kind == d.kind
    ensures r.state.Keys == d.state.Keys
    ensures forall k :: k in d.state && k in params && Truthy(d.state[k]) ==> r.state[k] == params[k]
    ensures forall k :: k in d.state && !(k in params && Truthy(d.state[k])) ==> r.state[k] == d.state[k]
  {
    d.(state := Update(d.state, params))
  }

  // ---------------------------------------------------------------------------
  // Capabilities

  predicate IsDimmable(d: Device) {
    d.category == Int(CategoryDimmer)
  }

  predicate HasTemperature(d: Device) {
    d.category == Int(CategoryTemperatureSensor)
  }

  predicate HasPower(d: Device) {
    d.category == Int(CategoryPowerSwitchMeter)
  }

  predicate HasEnergy(d: Device) {
    d.category == Int(CategoryPowerMeter)
  }

  /** `has_battery`: the battery field reads as something other than None. */
  predicate HasBattery(d: Device) {
    GetValue(d.state, "battery") != Null
  }

  /** The capability tests agree with the class a record was given, and no
      update can change either. */
  lemma CapabilitiesMatchClass(item: Snapshot, ps: seq<Snapshot>)
    ensures IsDimmable(FromRecord(item)) <==> FromRecord(item).kind == Dimmer
    ensures HasPower(FromRecord(item)) <==> FromRecord(item).kind == Switch
    ensures HasTemperature(FromRecord(item)) || HasEnergy(FromRecord(item)) <==> FromRecord(item).kind == Sensor
    ensures UpdateDeviceAll(FromRecord(item), ps).kind == FromRecord(item).kind
    ensures IsDimmable(UpdateDeviceAll(FromRecord(item), ps)) == IsDimmable(FromRecord(item))
    ensures HasBattery(FromRecord(item)) <==> Get(item, "battery") != Null
    ensures HasBattery(UpdateDeviceAll(FromRecord(item), ps)) ==> HasBattery(FromRecord(item))
  {
    UpdateDeviceAllKeepsAttributes(FromRecord(item), ps);
    BatteryNeverAppears(FromRecord(item), ps);
  }

  /** A device whose battery field reads as None keeps reading so: None is
      falsy, and the update rule never overwrites a falsy field. */
  lemma {:induction false} BatteryNeverAppears(d: Device, ps: seq<Snapshot>)
    ensures HasBattery(UpdateDeviceAll(d, ps)) ==> HasBattery(d)
    decreases |ps|
  {
    assert Lower("battery") == "battery";
    if ps != [] {
      BatteryNeverAppears(UpdateDevice(d, ps[0]), ps[1..]);
    }
  }

  function UpdateDeviceAll(d: Device, ps: seq<Snapshot>): Device
    decreases |ps|
  {
    if ps == [] then d else UpdateDeviceAll(UpdateDevice(d, ps[0]), ps[1..])
  }

  lemma {:induction false} UpdateDeviceAllKeepsAttributes(d: Device, ps: seq<Snapshot>)
    ensures var r := UpdateDeviceAll(d, ps);
      r.deviceId == d.deviceId && r.category == d.category && r.name == d.name && r.kind == d.kind
    decreases |ps|
  {
    if ps != [] {
      UpdateDeviceAllKeepsAttributes(UpdateDevice(d, ps[0]), ps[1..]);
    }
  }

  // ---------------------------------------------------------------------------
  // Status parsing

  /** The characters `level` strips first, and those it strips second. */
  const LevelLead: set<char> := {'O', 'n', ' ', '('}
  const LevelTail: set<char> := {'%', ')'}

  /** `'On' in status`: a non-string status raises TypeError. */
  function StatusIsOn(status: Value): (r: Result<bool>)
    ensures r.Failure? <==> !status.Str?
    ensures r.Failure? ==> r.error == TypeMismatch
    ensures r.Success? ==> (r.value <==> IsSubstring("On", status.s))
  {
    if status.Str? then Success(Contains(status.s, "On")) else Failure(TypeMismatch)
  }

  /** The `level` property: strip `O n ␣ (` from both ends (outside the try, so
      a non-string status raises AttributeError), strip `% )`, then `int()`,
      with 0 when `int()` refuses. */
  function StatusLevel(status: Value): (r: Result<int>)
    ensures r.Failure? <==> !status.Str?
    ensures r.Failure? ==> r.error == MissingAttribute
  {
    if !status.Str? then Failure(MissingAttribute)
    else Success(ParseInt(Strip(Strip(status.s, LevelLead), LevelTail)).GetOr(0))
  }

  /** The hub's dimmer status format "On (84%)" reads back as the level it
      carries, for every non-negative level, and reads as switched on. */
  lemma StatusLevelRoundTrip(n: nat)
    ensures StatusLevel(Str("On (" + DecimalString(n) + "%)")) == Success(n)
    ensures StatusIsOn(Str("On (" + DecimalString(n) + "%)")) == Success(true)
  {
    WrappedLevelStripped(n);
    DecimalRoundTrip(n);
    WrappedIsOn(DecimalString(n));
  }

  lemma WrappedLevelStripped(n: nat)
    ensures Strip(Strip("On (" + DecimalString(n) + "%)", LevelLead), LevelTail) == DecimalString(n)
  {
    DecimalShape(n);
    WrappedDigitsStripped(DecimalString(n));
  }

  lemma WrappedDigitsStripped(d: string)
    requires d != [] && IsDigit(d[0]) && IsDigit(d[|d| - 1])
    ensures Strip(Strip("On (" + d + "%)", LevelLead), LevelTail) == d
  {
    assert d[0] !in LevelLead;
    assert d[0] !in LevelTail && d[|d| - 1] !in LevelTail;
    LeadStripped(d);
    assert AllIn("%)", LevelTail);
    TailStripped(d, "%)");
  }

  lemma WrappedIsOn(d: string)
    ensures Contains("On (" + d + "%)", "On")
  {
    var full := "On (" + d + "%)";
    assert full[..2] == "On";
    assert "On" <= full[0..];
  }

  lemma LeadStripped(d: string)
    requires d != [] && d[0] !in LevelLead
    ensures Strip("On (" + d + "%)", LevelLead) == d + "%)"
  {
    var m := d + "%)";
    assert m[0] == d[0] && m[|m| - 1] == ')';
    assert AllIn("On (", LevelLead);
    assert "On (" + m + [] == "On (" + d + "%)";
    StripSurrounded("On (", m, [], LevelLead);
  }

  lemma TailStripped(d: string, tail: string)
    requires d != [] && d[0] !in LevelTail && d[|d| - 1] !in LevelTail
    requires AllIn(tail, LevelTail)
    ensures Strip(d + tail, LevelTail) == d
  {
    StripSurrounded([], d, tail, LevelTail);
    assert [] + d + tail == d + tail;
  }

  /** The bare "84%" format (seen on some hubs) reads back the same way. */
  lemma PercentLevelRoundTrip(n: nat)
    ensures StatusLevel(Str(DecimalString(n) + "%")) == Success(n)
  {
    PercentStripped(n);
    DecimalRoundTrip(n);
  }

  lemma PercentStripped(n: nat)
    ensures Strip(Strip(DecimalString(n) + "%", LevelLead), LevelTail) == DecimalString(n)
  {
    DecimalShape(n);
    PercentDigitsStripped(DecimalString(n));
  }

  lemma PercentDigitsStripped(d: string)
    requires d != [] && IsDigit(d[0]) && IsDigit(d[|d| - 1])
    ensures Strip(Strip(d + "%", LevelLead), LevelTail) == d
  {
    assert d[0] !in LevelLead;
    assert d[0] !in LevelTail && d[|d| - 1] !in LevelTail;
    assert AllIn("%", LevelTail);
    PercentLeadKept(d);
    TailStripped(d, "%");
  }

  lemma PercentLeadKept(d: string)
    requires d != [] && d[0] !in LevelLead
    ensures Strip(d + "%", LevelLead) == d + "%"
  {
    var p := d + "%";
    assert p[0] == d[0] && p[|p| - 1] == '%';
    StripUntouched(p, LevelLead);
  }

  /** "Off" reads as level 0 and as switched off. */
  lemma StatusOff()
    ensures StatusLevel(Str("Off")) == Success(0)
    ensures StatusIsOn(Str("Off")) == Success(false)
  {
    OffLevel();
    OffIsOff();
  }

  lemma OffLevel()
    ensures ParseInt(Strip(Strip("Off", LevelLead), LevelTail)) == None
  {
    OffLeadStripped();
    OffTailUntouched();
    FfIsNotANumber();
  }

  lemma OffLeadStripped()
    ensures Strip("Off", LevelLead) == "ff"
  {
    assert AllIn("O", LevelLead);
    StripSurrounded("O", "ff", [], LevelLead);
    assert "O" + "ff" + [] == "Off";
  }

  lemma OffTailUntouched()
    ensures Strip("ff", LevelTail) == "ff"
  {
    StripUntouched("ff", LevelTail);
  }

  lemma FfIsNotANumber()
    ensures ParseInt("ff") == None
  {
    StripUntouched("ff", Whitespace);
    assert !IsDigit("ff"[0]);
  }

  lemma OffIsOff()
    ensures !Contains("Off", "On")
  {
    assert "Off"[..2][1] == 'f';
    assert !("On" <= "Off");
    assert "Off"[1..] == "ff";
    assert "ff"[..2][0] == 'f';
    assert !("On" <= "ff");
    assert "ff"[1..] == "f";
    assert !("On" <= "f");
    assert "f"[1..] == [];
  }

  /** `str(n)` of a natural number is a non-empty run of digits. */
  lemma DecimalShape(n: nat)
    ensures |DecimalString(n)| >= 1
    ensures forall i :: 0 <= i < |DecimalString(n)| ==> IsDigit(DecimalString(n)[i])
  {
  }

  /** `ClimaxSwitch.is_switched_on` (also inherited by dimmers); any other class
      has no such method. */
  function IsSwitchedOn(d: Device): (r: Result<bool>)
    ensures d.kind !in {Switch, Dimmer} ==> r == Failure(MissingAttribute)
    ensures d.kind in {Switch, Dimmer} ==> (r.Failure? <==> !GetValue(d.state, "status").Str?)
    ensures d.kind in {Switch, Dimmer} && r.Failure? ==> r.error == TypeMismatch
    ensures d.kind in {Switch, Dimmer} && r.Success? ==>
              (r.value <==> IsSubstring("On", GetValue(d.state, "status").s))
  {
    if d.kind == Switch || d.kind == Dimmer then StatusIsOn(GetValue(d.state, "status"))
    else Failure(MissingAttribute)
  }

  /** `ClimaxDimmer.level`; only dimmers have it. */
  function Level(d: Device): (r: Result<int>)
    ensures d.kind != Dimmer ==> r == Failure(MissingAttribute)
    ensures d.kind == Dimmer ==> r == StatusLevel(GetValue(d.state, "status"))
    ensures forall n: nat :: d.kind == Dimmer && GetValue(d.state, "status") == Str("On (" + DecimalString(n) + "%)") ==>
              r == Success(n)
  {
    assert forall n: nat :: StatusLevel(Str("On (" + DecimalString(n) + "%)")) == Success(n) by {
      forall n: nat ensures StatusLevel(Str("On (" + DecimalString(n) + "%)")) == Success(n) {
        StatusLevelRoundTrip(n);
      }
    }
    if d.kind == Dimmer then StatusLevel(GetValue(d.state, "status")) else Failure(MissingAttribute)
  }

  // ---------------------------------------------------------------------------
  // Lookup

  /** `get_device_by_id` over a fetched list: the first device whose id
      attribute equals `id`, or nothing. */
  function FindById(ds: seq<Device>, id: Value): (r: Option<Device>)
    ensures r.Some? ==> exists i :: 0 <= i < |ds| && ds[i] == r.value && ds[i].deviceId == id
                                     && forall j :: 0 <= j < i ==> ds[j].deviceId != id
    ensures r.None? <==> forall i :: 0 <= i < |ds| ==> ds[i].deviceId != id
  {
    match Seqs.FirstIndex(ds, (d: Device) => d.deviceId == id)
    case None => None
    case Some(i) => Some(ds[i])
  }

  /** `get_device_by_name` over a fetched list: the first device whose name
      attribute equals `name`, or nothing. */
  function FindByName(ds: seq<Device>, name: Value): (r: Option<Device>)
    ensures r.Some? ==> exists i :: 0 <= i < |ds| && ds[i] == r.value && ds[i].name == name
                                     && forall j :: 0 <= j < i ==> ds[j].name != name
    ensures r.None? <==> forall i :: 0 <= i < |ds| ==> ds[i].name != name
  {
    match Seqs.FirstIndex(ds, (d: Device) => d.name == name)
    case None => None
    case Some(i) => Some(ds[i])
  }
}

=== FILE: legacy.dfy ===
/** The earlier variant of the client, pyclimax/climax.py. Records are
    classified by substrings of their `type_f` text instead of the numeric
    `type`, the display name uses that text, and the device list is fetched
    with no validation at all, so a bad body surfaces as whatever Python error
    the first failing step raises. */
module Legacy {
  import opened Wrappers
  import opened Text
  import opened Snapshots
  import opened Devices
  import opened Controller

  const DimmerText := "Dimmer"
  const SwitchText := "Power Switch Meter"
  const TemperatureSensorText := "Temperature Sensor"
  const PowerMeterText := "Power Meter"

  /** The class chosen for a `type_f` text, tests taken in priority order. */
  function Classify(typeF: string): (k: Kind)
    ensures k == Dimmer <==> IsSubstring(DimmerText, typeF)
    ensures k == Switch <==> !IsSubstring(DimmerText, typeF) && IsSubstring(SwitchText, typeF)
    ensures k == Sensor <==> && !IsSubstring(DimmerText, typeF) && !IsSubstring(SwitchText, typeF)
                             && (IsSubstring(TemperatureSensorText, typeF) || IsSubstring(PowerMeterText, typeF))
  {
    if Contains(typeF, DimmerText) then Dimmer
    else if Contains(typeF, SwitchText) then Switch
    else if Contains(typeF, TemperatureSensorText) || Contains(typeF, PowerMeterText) then Sensor
    else Generic
  }

  /** One record turned into a device object. `'Dimmer' in type_f` raises
      TypeError unless `type_f` is a string, so only such records get through,
      and the name is built from that text. */
  function FromRecord(item: Snapshot): (r: Result<Device>)
    ensures r.Failure? <==> !Get(item, "type_f").Str?
    ensures r.Failure? ==> r.error == TypeMismatch
    ensures r.Success? ==> && r.value.state == item
                           && r.value.category == Get(item, "type_f")
                           && r.value.kind == Classify(Get(item, "type_f").s)
                           && r.value.deviceId == Get(item, "id")
                           && r.value.name == DisplayName(Get(item, "name"), Get(item, "type_f"), Get(item, "id"))
  {
    var typeF := Get(item, "type_f");
    if typeF.Str? then Success(Build(item, typeF, Classify(typeF.s))) else Failure(TypeMismatch)
  }

  /** The loop of the legacy `get_devices`: devices are appended one by one
      until an item raises; returns what was appended and the error, if any. */
  function BuildAll(items: seq<Item>): (out: (seq<Device>, Option<Fault>))
    ensures |out.0| <= |items|
    ensures forall i :: 0 <= i < |out.0| ==> items[i].Record? && FromRecord(items[i].fields) == Success(out.0[i])
    ensures out.1.None? <==> |out.0| == |items|
    ensures out.1.Some? ==> out.1.value in {MissingAttribute, TypeMismatch}
    ensures |out.0| < |items| ==> items[|out.0|].NotARecord? || !Get(items[|out.0|].fields, "type_f").Str?
    ensures |out.0| < |items| ==> (out.1 == Some(MissingAttribute) <==> items[|out.0|].NotARecord?)
    decreases |items|
  {
    if items == [] then ([], None)
    else
      match items[0]
      case NotARecord => ([], Some(MissingAttribute))
      case Record(fields) =>
        match FromRecord(fields)
        case Failure(e) => ([], Some(e))
        case Success(d) =>
          var (rest, err) := BuildAll(items[1..]);
          ([d] + rest, err)
  }

  /** The legacy `get_devices(self)`: no status check, no empty-body check, no
      shape check. The stored list is cleared before `senrows` is read, so a
      body that is not an object, or lacks `senrows`, leaves it empty. */
  function GetDevices(stored: seq<Device>, resp: Response): (out: (seq<Device>, Result<seq<Device>>))
    ensures resp.TransportFailed? ==> out == (stored, Failure(Transport))
    ensures resp.EmptyBody? || resp.Undecodable? ==> out == (stored, Failure(BadValue))
    ensures resp == Decoded(NotAnObject) ==> out == ([], Failure(MissingAttribute))
    ensures resp == Decoded(Object(None)) ==> out == ([], Failure(TypeMismatch))
    ensures out.1.Failure? ==> out.1.error != Protocol
    ensures out.1.Success? ==> out.0 == out.1.value
  {
    match resp
    case TransportFailed => (stored, Failure(Transport))
    case EmptyBody => (stored, Failure(BadValue))
    case Undecodable => (stored, Failure(BadValue))
    case Decoded(NotAnObject) => ([], Failure(MissingAttribute))
    case Decoded(Object(None)) => ([], Failure(TypeMismatch))
    case Decoded(Object(Some(NotAList))) => ([], Failure(TypeMismatch))
    case Decoded(Object(Some(Items(items)))) =>
      var (built, err) := BuildAll(items);
      if err.None? then (built, Success(built)) else (built, Failure(err.value))
  }

  /** On a list of records that all carry a `type_f` text, there is one device
      per record, in order, classified by that text, and the stored list becomes
      exactly that. */
  lemma GetDevicesClassifies(stored: seq<Device>, records: seq<Snapshot>)
    requires forall i :: 0 <= i < |records| ==> Get(records[i], "type_f").Str?
    ensures var items := seq(|records|, i requires 0 <= i < |records| => Record(records[i]));
      var out := GetDevices(stored, Decoded(Object(Some(Items(items)))));
      && out.1.Success?
      && out.0 == out.1.value
      && |out.1.value| == |records|
      && (forall i :: 0 <= i < |records| ==> out.1.value[i].state == records[i])
      && (forall i :: 0 <= i < |records| ==>
            out.1.value[i].kind == Classify(Get(records[i], "type_f").s))
  {
    var items := seq(|records|, i requires 0 <= i < |records| => Record(records[i]));
    AllBuilt(items);
  }

  lemma {:induction false} AllBuilt(items: seq<Item>)
    requires forall i :: 0 <= i < |items| ==> items[i].Record? && Get(items[i].fields, "type_f").Str?
    ensures BuildAll(items).1.None?
    decreases |items|
  {
    if items != [] {
      AllBuilt(items[1..]);
    }
  }

  /** A record whose `type_f` is missing stops the loop with TypeError and
      leaves the stored list holding the devices built before it. */
  lemma MissingTypeLeavesPartialList(stored: seq<Device>, before: seq<Snapshot>, bad: Snapshot, after: seq<Item>)
    requires forall i :: 0 <= i < |before| ==> Get(before[i], "type_f").Str?
    requires "type_f" !in bad
    ensures var items := seq(|before|, i requires 0 <= i < |before| => Record(before[i])) + [Record(bad)] + after;
      var out := GetDevices(stored, Decoded(Object(Some(Items(items)))));
      && out.1 == Failure(TypeMismatch)
      && |out.0| == |before|
      && (forall i :: 0 <= i < |before| ==> out.0[i].state == before[i])
  {
    var pre := seq(|before|, i requires 0 <= i < |before| => Record(before[i]));
    PrefixBuilt(pre, bad, after);
  }

  lemma {:induction false} PrefixBuilt(pre: seq<Item>, bad: Snapshot, after: seq<Item>)
    requires forall i :: 0 <= i < |pre| ==> pre[i].Record? && Get(pre[i].fields, "type_f").Str?
    requires "type_f" !in bad
    ensures BuildAll(pre + [Record(bad)] + after).1 == Some(TypeMismatch)
    ensures |BuildAll(pre + [Record(bad)] + after).0| == |pre|
    decreases |pre|
  {
    var items := pre + [Record(bad)] + after;
    if pre == [] {
      assert items[0] == Record(bad);
    } else {
      PrefixBuilt(pre[1..], bad, after);
      assert items[1..] == pre[1..] + [Record(bad)] + after;
      assert items[0] == pre[0];
      BuiltRecordContinues(items);
    }
  }

  /** A record with a `type_f` text is built and the loop carries on with the rest. */
  lemma BuiltRecordContinues(items: seq<Item>)
    requires items != [] && items[0].Record? && Get(items[0].fields, "type_f").Str?
    ensures BuildAll(items).1 == BuildAll(items[1..]).1
    ensures |BuildAll(items).0| == 1 + |BuildAll(items[1..]).0|
  {
  }

  // ---------------------------------------------------------------------------
  // Device properties

  /** `is_dimmable`: `'Dimmer' in self.type`, where the type is the `type_f`
      text (a non-string raises TypeError). */
  function IsDimmable(d: Device): (r: Result<bool>)
    ensures r.Failure? <==> !d.category.Str?
    ensures r.Success? ==> (r.value <==> IsSubstring(DimmerText, d.category.s))
  {
    if d.category.Str? then Success(Contains(d.category.s, DimmerText)) else Failure(TypeMismatch)
  }

  /** Every device the legacy fetch builds answers `is_dimmable` without
      raising, and answers it exactly when it was classified a dimmer. */
  lemma DimmableMatchesClass(item: Snapshot)
    requires FromRecord(item).Success?
    ensures IsDimmable(FromRecord(item).value) == Success(FromRecord(item).value.kind == Dimmer)
  {
  }

  /** The legacy `level` lives on the base class, so every device has it. */
  function Level(d: Device): (r: Result<int>)
    ensures r == StatusLevel(GetValue(d.state, "status"))
    ensures r.Failure? <==> !GetValue(d.state, "status").Str?
    ensures forall n: nat :: GetValue(d.state, "status") == Str("On (" + DecimalString(n) + "%)") ==> r == Success(n)
  {
    assert forall n: nat :: StatusLevel(Str("On (" + DecimalString(n) + "%)")) == Success(n) by {
      forall n: nat ensures StatusLevel(Str("On (" + DecimalString(n) + "%)")) == Success(n) {
        StatusLevelRoundTrip(n);
      }
    }
    StatusLevel(GetValue(d.state, "status"))
  }

  /** The legacy `is_switched_on`, on switches and dimmers. */
  function IsSwitchedOn(d: Device): (r: Result<bool>)
    ensures d.kind !in {Switch, Dimmer} ==> r == Failure(MissingAttribute)
    ensures d.kind in {Switch, Dimmer} ==> (r.Failure? <==> !GetValue(d.state, "status").Str?)
    ensures d.kind in {Switch, Dimmer} && r.Success? ==>
              (r.value <==> IsSubstring("On", GetValue(d.state, "status").s))
  {
    if d.kind == Switch || d.kind == Dimmer then StatusIsOn(GetValue(d.state, "status"))
    else Failure(MissingAttribute)
  }

  /** Legacy `get_device_by_id`: the legacy fetch, then first match on id. */
  function DeviceById(stored: seq<Device>, resp: Response, id: Value): (out: (seq<Device>, Result<Option<Device>>))
    ensures out.0 == GetDevices(stored, resp).0
    ensures out.1.Failure? <==> GetDevices(stored, resp).1.Failure?
    ensures out.1.Failure? ==> out.1.error == GetDevices(stored, resp).1.error
    ensures out.1.Success? ==> out.1.value == FindById(out.0, id)
    ensures out.1.Failure? ==> out.1.error != Protocol
  {
    var (now, r) := GetDevices(stored, resp);
    match r
    case Failure(e) => (now, Failure(e))
    case Success(ds) => (now, Success(FindById(ds, id)))
  }

  /** Legacy `get_device_by_name`: the legacy fetch, then first match on name. */
  function DeviceByName(stored: seq<Device>, resp: Response, name: Value): (out: (seq<Device>, Result<Option<Device>>))
    ensures out.0 == GetDevices(stored, resp).0
    ensures out.1.Failure? <==> GetDevices(stored, resp).1.Failure?
    ensures out.1.Failure? ==> out.1.error == GetDevices(stored, resp).1.error
    ensures out.1.Success? ==> out.1.value == FindByName(out.0, name)
    ensures out.1.Failure? ==> out.1.error != Protocol
  {
    var (now, r) := GetDevices(stored, resp);
    match r
    case Failure(e) => (now, Failure(e))
    case Success(ds) => (now, Success(FindByName(ds, name)))
  }
}

=== FILE: poll.dfy ===
/** The poll thread of pyclimax/subscribe.py (`_run_poll_server`): call
    `get_changed_devices` until `_exiting` is set, swallow transport and
    protocol errors with a pause, dispatch non-empty change lists while not
    exiting, and let any other exception end the thread. Time is not modelled;
    each pause is recorded as the number of seconds slept. The other thread's
    `stop()` is an event in the schedule the loop observes. */
module Poll {
  import opened Wrappers
  import opened Snapshots
  import opened Devices
  import Controller
  import Subscription

  /** Seconds slept after a failed poll (`SUBSCRIPTION_RETRY`). */
  const SubscriptionRetry: nat := 3
  /** Seconds slept after a successful poll, while not exiting. */
  const ChangeInterval: nat := 1

  /** How a call of `get_changed_devices` ended, as the loop's `except` clauses see it. */
  datatype Outcome =
    | Polled(changes: seq<Device>)
    | TransportFailure          // requests.RequestException
    | ProtocolFailure           // PyclimaxError
    | UnexpectedFailure(fault: Fault)

  /** Sorts the result of a call into the loop's `except` clauses. */
  function Catch(r: Result<seq<Device>>): (o: Outcome)
    ensures o.Polled? <==> r.Success?
    ensures o.Polled? ==> o.changes == r.value
    ensures o == TransportFailure <==> r == Failure(Transport)
    ensures o == ProtocolFailure <==> r == Failure(Protocol)
    ensures o.UnexpectedFailure? <==> r.Failure? && r.error != Transport && r.error != Protocol
  {
    match r
    case Success(ds) => Polled(ds)
    case Failure(Transport) => TransportFailure
    case Failure(Protocol) => ProtocolFailure
    case Failure(e) => UnexpectedFailure(e)
  }

  /** Where the loop is once it next reaches its `while` test. */
  datatype Loop = Running | Stopped | Crashed(fault: Fault)

  /** One pass through the loop body: whether the changes are dispatched, how
      long it sleeps, and how it continues. */
  datatype Transition = Transition(dispatch: bool, sleep: nat, next: Loop)

  /** The loop body after the call returned `o`, with `exiting` the value of
      the flag when the body reads it after the call. */
  function Step(exiting: bool, o: Outcome): (t: Transition)
    ensures t.dispatch ==> o.Polled? && o.changes != []
    ensures o.Polled? && o.changes != [] && !exiting ==> t.dispatch
    ensures exiting ==> !t.dispatch
    ensures t.next.Crashed? <==> o.UnexpectedFailure?
    ensures t.next == Stopped <==> exiting && !o.UnexpectedFailure?
    ensures o.TransportFailure? || o.ProtocolFailure? ==> t.sleep == SubscriptionRetry
    ensures o.Polled? ==> t.sleep == (if exiting then 0 else ChangeInterval)
    ensures o.UnexpectedFailure? ==> t.sleep == 0
  {
    var next := if exiting then Stopped else Running;
    match o
    case UnexpectedFailure(e) => Transition(false, 0, Crashed(e))
    case TransportFailure => Transition(false, SubscriptionRetry, next)
    case ProtocolFailure => Transition(false, SubscriptionRetry, next)
    case Polled(ds) =>
      if exiting then Transition(false, 0, Stopped)
      else Transition(ds != [], ChangeInterval, Running)
  }

  // ---------------------------------------------------------------------------
  // A whole run of the thread against a schedule

  /** What the loop observes: `stop()` called between two passes, or one pass
      whose call returned `o`, with `stop()` called while the call was in flight
      or not. */
  datatype Event = StopRequested | Iteration(o: Outcome, stopDuringCall: bool)

  /** An event that sets `_exiting`. */
  predicate Stopping(e: Event) {
    e.StopRequested? || e.stopDuringCall
  }

  predicate Unexpected(e: Event) {
    e.Iteration? && e.o.UnexpectedFailure?
  }

  /** The final loop state, the change lists dispatched, in order, and the
      seconds slept. */
  datatype Trace = Trace(final: Loop, dispatched: seq<seq<Device>>, slept: nat)

  /** The loop started with `_exiting` equal to `exiting`, run against `evs`. */
  function Run(exiting: bool, evs: seq<Event>): (t: Trace)
    ensures forall i :: 0 <= i < |t.dispatched| ==>
              t.dispatched[i] != [] && Iteration(Polled(t.dispatched[i]), false) in evs
    ensures exiting ==> t.dispatched == []
    decreases |evs|
  {
    if evs == [] then Trace(if exiting then Stopped else Running, [], 0)
    else
      match evs[0]
      case StopRequested => Run(true, evs[1..])
      case Iteration(o, stopDuringCall) =>
        if exiting then Trace(Stopped, [], 0)
        else
          var t := Step(stopDuringCall, o);
          if t.next.Crashed? then Trace(t.next, [], 0)
          else
            var rest := Run(stopDuringCall, evs[1..]);
            Trace(rest.final, (if t.dispatch then [o.changes] else []) + rest.dispatched, t.sleep + rest.slept)
  }

  /** A loop that starts with `_exiting` set does nothing at all. */
  lemma {:induction false} ExitingRunsNothing(evs: seq<Event>)
    ensures Run(true, evs) == Trace(Stopped, [], 0)
    decreases |evs|
  {
    if evs != [] && evs[0].StopRequested? {
      ExitingRunsNothing(evs[1..]);
    }
  }

  /** Once `stop()` is called nothing later in the schedule matters: the run
      is the same as if the schedule ended there, and the loop ends stopped or
      crashed, never still running. */
  lemma {:induction false} StopIsFinal(exiting: bool, evs: seq<Event>, k: nat)
    requires k < |evs| && Stopping(evs[k])
    ensures Run(exiting, evs) == Run(exiting, evs[..k + 1])
    ensures Run(exiting, evs).final != Running
    decreases k
  {
    if exiting {
      ExitingRunsNothing(evs);
      ExitingRunsNothing(evs[..k + 1]);
    } else {
      assert evs[..k + 1][0] == evs[0];
      assert evs[..k + 1][1..] == evs[1..][..k];
      match evs[0]
      case StopRequested =>
        ExitingRunsNothing(evs[1..]);
        ExitingRunsNothing(evs[1..][..k]);
      case Iteration(o, stopDuringCall) =>
        if k == 0 {
          assert stopDuringCall;
          ExitingRunsNothing(evs[1..]);
          ExitingRunsNothing(evs[..1][1..]);
        } else {
          StopIsFinal(stopDuringCall, evs[1..], k - 1);
        }
    }
  }

  /** No event before position `k` sets `_exiting`. */
  predicate NoStopBefore(evs: seq<Event>, k: nat)
    requires k <= |evs|
  {
    forall j :: 0 <= j < k ==> !Stopping(evs[j])
  }

  /** The call at position `k` raises an unexpected exception while the loop
      is still live. */
  predicate CrashPoint(evs: seq<Event>, k: nat) {
    k < |evs| && Unexpected(evs[k]) && NoStopBefore(evs, k)
  }

  /** Started normally, the thread crashes exactly when some call raises an
      unexpected exception before any `stop()`. */
  lemma {:induction false} CrashesIffUnexpectedBeforeStop(evs: seq<Event>)
    ensures Run(false, evs).final.Crashed? <==> exists k: nat :: CrashPoint(evs, k)
    decreases |evs|
  {
    if evs != [] {
      var tail := evs[1..];
      var first := evs[0];
      if Unexpected(first) {
        assert NoStopBefore(evs, 0);
        assert CrashPoint(evs, 0);
      } else if Stopping(first) {
        StopIsFinal(false, evs, 0);
        ExitingRunsNothing(tail);
        forall k: nat | k < |evs| ensures !CrashPoint(evs, k) {
          if k > 0 {
            assert Stopping(evs[0]);
          }
        }
      } else {
        CrashesIffUnexpectedBeforeStop(tail);
        if Run(false, tail).final.Crashed? {
          var k: nat :| CrashPoint(tail, k);
          assert evs[k + 1] == tail[k];
          forall j | 0 <= j < k + 1 ensures !Stopping(evs[j]) {
            if j > 0 { assert evs[j] == tail[j - 1]; }
          }
          assert CrashPoint(evs, k + 1);
        } else {
          forall k: nat | CrashPoint(evs, k) ensures false {
            assert k != 0;
            assert tail[k - 1] == evs[k];
            forall j | 0 <= j < k - 1 ensures !Stopping(tail[j]) {
              assert evs[j + 1] == tail[j];
            }
            assert CrashPoint(tail, k - 1);
          }
        }
      }
    }
  }

  /** Started normally, with no `stop()` and no unexpected exception, the
      thread is still running after any schedule. */
  lemma {:induction false} KeepsRunning(evs: seq<Event>)
    requires forall k :: 0 <= k < |evs| ==> !Stopping(evs[k]) && !Unexpected(evs[k])
    ensures Run(false, evs).final == Running
    decreases |evs|
  {
    if evs != [] {
      assert !Stopping(evs[0]) && !Unexpected(evs[0]);
      forall k | 0 <= k < |evs[1..]| ensures !Stopping(evs[1..][k]) && !Unexpected(evs[1..][k]) {
        assert evs[1..][k] == evs[k + 1];
      }
      KeepsRunning(evs[1..]);
    }
  }

  /** Started normally, every non-empty change list a call returns before any
      `stop()` and before any unexpected exception is dispatched. */
  lemma {:induction false} LiveChangesAreDispatched(evs: seq<Event>, k: nat, ch: seq<Device>)
    requires k < |evs| && evs[k] == Iteration(Polled(ch), false) && ch != []
    requires NoStopBefore(evs, k)
    requires forall j :: 0 <= j < k ==> !Unexpected(evs[j])
    ensures ch in Run(false, evs).dispatched
    decreases k
  {
    if k > 0 {
      var tail := evs[1..];
      assert !Stopping(evs[0]) && !Unexpected(evs[0]);
      assert tail[k - 1] == evs[k];
      forall j | 0 <= j < k - 1 ensures !Stopping(tail[j]) && !Unexpected(tail[j]) {
        assert tail[j] == evs[j + 1];
      }
      LiveChangesAreDispatched(tail, k - 1, ch);
    }
  }

  /** How many events the loop lives through when started normally: the
      position of the first event that sets `_exiting` or raises an unexpected
      exception, or the whole schedule when there is none. */
  function LiveLength(evs: seq<Event>): (n: nat)
    ensures n <= |evs|
    ensures forall j :: 0 <= j < n ==> !Stopping(evs[j]) && !Unexpected(evs[j])
    ensures n < |evs| ==> Stopping(evs[n]) || Unexpected(evs[n])
    decreases |evs|
  {
    if evs == [] || Stopping(evs[0]) || Unexpected(evs[0]) then 0
    else 1 + LiveLength(evs[1..])
  }

  /** The non-empty change lists the calls in `evs` returned, in order. */
  function PolledLists(evs: seq<Event>): (ls: seq<seq<Device>>)
    ensures |ls| <= |evs|
    ensures forall i :: 0 <= i < |ls| ==> ls[i] != []
    decreases |evs|
  {
    if evs == [] then []
    else
      var e := evs[0];
      (if e.Iteration? && e.o.Polled? && e.o.changes != [] then [e.o.changes] else []) + PolledLists(evs[1..])
  }

  /** Started normally, the loop dispatches exactly the non-empty change lists
      of its live part, each once and in the order the calls returned them. */
  lemma {:induction false} DispatchedAreLivePolls(evs: seq<Event>)
    ensures Run(false, evs).dispatched == PolledLists(evs[..LiveLength(evs)])
    decreases |evs|
  {
    if evs != [] {
      var tail := evs[1..];
      if Stopping(evs[0]) || Unexpected(evs[0]) {
        ExitingRunsNothing(tail);
      } else {
        var n := LiveLength(evs);
        DispatchedAreLivePolls(tail);
        assert evs[..n][0] == evs[0];
        assert evs[..n][1..] == tail[..n - 1];
      }
    }
  }

  // ---------------------------------------------------------------------------
  // One pass wired to the controller and the registry

  /** What one pass reads and writes: the controller's stored device list, the
      registry, and the state of the registered device objects. */
  datatype Client = Client(stored: seq<Device>, registry: Subscription.Registry, store: Subscription.Store)

  /** One pass of the loop: `get_changed_devices` on the response `resp`, then
      the body, dispatching through `_event` when it decides to. */
  function Iterate(c: Client, resp: Controller.Response, stopDuringCall: bool, raises: Subscription.Raises)
    : (out: (Client, Transition, seq<Subscription.Invocation>))
    requires Subscription.Live(c.registry, c.store)
    ensures out.0.registry == c.registry
    ensures out.0.store.Keys == c.store.Keys
    ensures Subscription.Live(out.0.registry, out.0.store)
    ensures out.0.stored == Controller.GetDevices(c.stored, resp).0
    ensures !out.1.dispatch ==> out.0.store == c.store && out.2 == []
    ensures stopDuringCall ==> out.2 == []
    ensures forall i :: 0 <= i < |out.2| ==>
              out.2[i].callback in Subscription.CallbacksOf(c.registry, out.2[i].device)
    ensures out.1 == Step(stopDuringCall, Catch(Controller.GetChangedDevices(c.stored, resp).1))
    ensures var r := Controller.GetChangedDevices(c.stored, resp).1;
      out.1.dispatch <==> !stopDuringCall && r.Success? && r.value != []
    ensures var r := Controller.GetChangedDevices(c.stored, resp).1;
      out.1.dispatch ==> (out.0.store, out.2) == Subscription.Event(c.registry, c.store, r.value, raises)
  {
    var (stored', r) := Controller.GetChangedDevices(c.stored, resp);
    var o := Catch(r);
    var t := Step(stopDuringCall, o);
    if t.dispatch then
      var (store', log) := Subscription.Event(c.registry, c.store, o.changes, raises);
      (Client(stored', c.registry, store'), t, log)
    else
      (Client(stored', c.registry, c.store), t, [])
  }

  /** Completeness of one pass: when the poll returns changes and `stop()` did
      not come during the call, every callback of every device object
      registered under the id of change `k` is called, seeing that object's
      state after changes 0..k, provided the ids of changes 0..k all have
      buckets. */
  lemma PassDispatchesEveryChange(c: Client, resp: Controller.Response, raises: Subscription.Raises,
                                  k: nat, h: Subscription.Handle, cb: nat)
    requires Subscription.Live(c.registry, c.store)
    requires Controller.GetChangedDevices(c.stored, resp).1.Success?
    requires var ch := Controller.GetChangedDevices(c.stored, resp).1.value;
      k < |ch| && (forall j :: 0 <= j <= k ==> Get(ch[j].state, "id") in c.registry.devices)
      && h in c.registry.devices[Get(ch[k].state, "id")] && cb < |Subscription.CallbacksOf(c.registry, h)|
    ensures h in c.store
    ensures var ch := Controller.GetChangedDevices(c.stored, resp).1.value;
      Subscription.CallOf(c.registry, h, Subscription.Replay(c.registry, h, c.store[h], ch[..k]), cb, ch[k].state, raises)
        in Iterate(c, resp, false, raises).2
  {
    var ch := Controller.GetChangedDevices(c.stored, resp).1.value;
    Subscription.EveryChangeIsDispatched(c.registry, c.store, ch, raises, k, h, cb);
  }

  /** A fetched device whose id is not a string, compared against a non-empty
      stored list, raises TypeError in `get_changed_devices`, which the loop
      does not catch: the thread ends. */
  lemma NonTextIdCrashesLoop(c: Client, resp: Controller.Response, stopDuringCall: bool, raises: Subscription.Raises)
    requires Subscription.Live(c.registry, c.store)
    requires c.stored != []
    requires Controller.GetDevices(c.stored, resp).1.Success?
    requires var ds := Controller.GetDevices(c.stored, resp).1.value;
      ds != [] && !Controller.IdOf(ds[0]).Str?
    ensures Iterate(c, resp, stopDuringCall, raises).1.next == Crashed(TypeMismatch)
    ensures Iterate(c, resp, stopDuringCall, raises).2 == []
  {
    var ds := Controller.GetDevices(c.stored, resp).1.value;
    assert Controller.IdIn(Controller.IdOf(ds[0]), Controller.IdOf(c.stored[0])) == Failure(TypeMismatch);
    assert Controller.FirstMatch(Controller.IdOf(ds[0]), c.stored) == Failure(TypeMismatch);
  }

  /** A failed fetch leaves everything but the stored list as it was, and
      the loop pauses for the retry interval and carries on. */
  lemma FailedFetchRetries(c: Client, resp: Controller.Response, stopDuringCall: bool, raises: Subscription.Raises)
    requires Subscription.Live(c.registry, c.store)
    requires Controller.Validate(resp).Failure?
    ensures var (c', t, log) := Iterate(c, resp, stopDuringCall, raises);
      && c' == c && log == []
      && t == Transition(false, SubscriptionRetry, if stopDuringCall then Stopped else Running)
  {
  }
}

=== FILE: seqs.dfy ===
/** Sequence operations with Python list semantics: first-match search,
    `list.remove(x)` (first occurrence only), and an order-preserving filter. */
module Seqs {
  import opened Wrappers

  /** The index of the first element satisfying `p`, as a `for ... break` loop finds it. */
  function FirstIndex<T>(s: seq<T>, p: T -> bool): (r: Option<nat>)
    ensures r.Some? ==> r.value < |s| && p(s[r.value])
    ensures r.Some? ==> forall j :: 0 <= j < r.value ==> !p(s[j])
    ensures r.None? <==> forall j :: 0 <= j < |s| ==> !p(s[j])
    decreases |s|
  {
    if s == [] then None
    else if p(s[0]) then Some(0)
    else
      match FirstIndex(s[1..], p)
      case None => None
      case Some(k) => Some(k + 1)
  }

  /** The position of the first occurrence of `x`. */
  function IndexOf<T(==)>(s: seq<T>, x: T): (i: nat)
    requires x in s
    ensures i < |s| && s[i] == x && x !in s[..i]
  {
    if s[0] == x then 0
    else
      var k := IndexOf(s[1..], x);
      assert s[..k + 1] == [s[0]] + s[1..][..k];
      k + 1
  }

  /** Python's `list.remove(x)` when `x` is present (absent, it raises ValueError,
      which callers model themselves): exactly one copy of `x` goes, the first. */
  function RemoveFirst<T(==)>(s: seq<T>, x: T): (r: seq<T>)
    requires x in s
    ensures |r| == |s| - 1
    ensures multiset(r) == multiset(s) - multiset{x}
    ensures r == s[..IndexOf(s, x)] + s[IndexOf(s, x) + 1..]
  {
    var i := IndexOf(s, x);
    assert s == s[..i] + [x] + s[i + 1..];
    s[..i] + s[i + 1..]
  }

  /** Removing what was just appended restores the sequence exactly, provided
      the element was not there already; otherwise an earlier copy goes instead. */
  lemma RemoveAppended<T>(s: seq<T>, x: T)
    ensures multiset(RemoveFirst(s + [x], x)) == multiset(s)
    ensures x !in s ==> RemoveFirst(s + [x], x) == s
    ensures x in s ==> RemoveFirst(s + [x], x) == RemoveFirst(s, x) + [x]
  {
    if x !in s {
      RemoveAppendedAbsent(s, x);
    } else {
      RemoveAppendedPresent(s, x);
    }
  }

  lemma RemoveAppendedAbsent<T>(s: seq<T>, x: T)
    requires x !in s
    ensures RemoveFirst(s + [x], x) == s
  {
    var t := s + [x];
    assert t[..|s|] == s;
    IndexOfIsFirst(t, x, |s|);
  }

  lemma RemoveAppendedPresent<T>(s: seq<T>, x: T)
    requires x in s
    ensures RemoveFirst(s + [x], x) == RemoveFirst(s, x) + [x]
  {
    var t := s + [x];
    var i := IndexOf(s, x);
    assert t[..i] == s[..i];
    IndexOfIsFirst(t, x, i);
    assert t[i + 1..] == s[i + 1..] + [x];
  }

  /** Any position holding the first copy of `x` is the one `IndexOf` finds. */
  lemma IndexOfIsFirst<T>(s: seq<T>, x: T, i: nat)
    requires i < |s| && s[i] == x && x !in s[..i]
    ensures IndexOf(s, x) == i
  {
  }

  /** A non-empty prefix is its first element followed by a prefix of the rest. */
  lemma PrefixCons<T>(s: seq<T>, k: nat)
    requires 0 < k <= |s|
    ensures s[..k] == [s[0]] + s[1..][..k - 1]
  {
    assert forall i :: 0 <= i < k ==> s[..k][i] == ([s[0]] + s[1..][..k - 1])[i];
  }

  /** Greedy subsequence test: `r` can be read off `s` left to right, each
      element of `s` used at most once. */
  predicate IsSubseq<T(==)>(r: seq<T>, s: seq<T>)
    decreases |s|
  {
    if r == [] then true
    else if s == [] then false
    else if r[0] == s[0] then IsSubseq(r[1..], s[1..])
    else IsSubseq(r, s[1..])
  }

  /** The elements of `s` that satisfy `p`, in order. */
  function Filter<T(==)>(s: seq<T>, p: T -> bool): (r: seq<T>)
    ensures |r| <= |s|
    ensures forall i :: 0 <= i < |r| ==> r[i] in s && p(r[i])
    ensures forall i :: 0 <= i < |s| && p(s[i]) ==> s[i] in r
    decreases |s|
  {
    if s == [] then []
    else if p(s[0]) then [s[0]] + Filter(s[1..], p)
    else Filter(s[1..], p)
  }

  /** A filter keeps order and never duplicates an element: its result is a
      subsequence of its input. */
  lemma {:induction false} FilterIsSubseq<T>(s: seq<T>, p: T -> bool)
    ensures IsSubseq(Filter(s, p), s)
    decreases |s|
  {
    if s != [] {
      FilterIsSubseq(s[1..], p);
      var f := Filter(s[1..], p);
      if !p(s[0]) {
        SubseqSkip(f, s[0], s[1..]);
      }
    }
  }

  /** Prepending an element to the longer sequence keeps a subsequence one. */
  lemma {:induction false} SubseqSkip<T>(r: seq<T>, x: T, s: seq<T>)
    requires IsSubseq(r, s)
    ensures IsSubseq(r, [x] + s)
    decreases |s|, 1
  {
    var t := [x] + s;
    assert t[1..] == s;
    if r != [] && r[0] == x {
      // greedy matching takes x; the rest of r must still fit in s
      SubseqDrop(r, s);
    }
  }

  /** Dropping the head of a subsequence keeps it a subsequence. */
  lemma {:induction false} SubseqDrop<T>(r: seq<T>, s: seq<T>)
    requires r != [] && IsSubseq(r, s)
    ensures IsSubseq(r[1..], s)
    decreases |s|, 0
  {
    if r[0] == s[0] {
      SubseqSkip(r[1..], s[0], s[1..]);
      assert [s[0]] + s[1..] == s;
    } else {
      SubseqDrop(r, s[1..]);
      SubseqSkip(r[1..], s[0], s[1..]);
      assert [s[0]] + s[1..] == s;
    }
  }

  /** A subsequence never has more copies of an element than its source. */
  lemma {:induction false} SubseqMultiset<T>(r: seq<T>, s: seq<T>)
    requires IsSubseq(r, s)
    ensures multiset(r) <= multiset(s)
    decreases |s|
  {
    if r != [] {
      assert s == [s[0]] + s[1..];
      if r[0] == s[0] {
        SubseqMultiset(r[1..], s[1..]);
        assert r == [r[0]] + r[1..];
      } else {
        SubseqMultiset(r, s[1..]);
      }
    }
  }
}

=== FILE: snapshots.dfy ===
/** A device snapshot: the JSON record the hub reports for one device, held
    as a map from field name to scalar value, with Python's truthiness and
    `str()` on those values, and the update rule the client applies to it. */
module Snapshots {
  import opened Text

  /** A scalar JSON value as Python sees it after decoding. */
  datatype Value = Null | Bool(b: bool) | Int(i: int) | Str(s: string)

  /** Python truthiness: None, False, 0 and "" are false, everything else true. */
  predicate Truthy(v: Value) {
    match v
    case Null => false
    case Bool(b) => b
    case Int(i) => i != 0
    case Str(s) => s != ""
  }

  /** Python's `str(v)`. */
  function StrOf(v: Value): string {
    match v
    case Null => "None"
    case Bool(b) => if b then "True" else "False"
    case Int(i) => DecimalString(i)
    case Str(s) => s
  }

  type Snapshot = map<string, Value>

  /** `dict.get(k)` (and `get_strict_value`): a missing key reads as None, so a
      missing key and a key holding JSON null cannot be told apart. */
  function Get(s: Snapshot, k: string): (v: Value)
    ensures k !in s ==> v == Null
    ensures k in s ==> v == s[k]
  {
    if k in s then s[k] else Null
  }

  /** `get_value(name)`: the strict lookup of the lower-cased name. */
  function GetValue(s: Snapshot, name: string): (v: Value)
    ensures Lower(name) in s ==> v == s[Lower(name)]
    ensures Lower(name) !in s ==> v == Null
    ensures name == Lower(name) ==> v == Get(s, name)
  {
    Get(s, Lower(name))
  }

  /** `get_value` is blind to keys holding an upper-case letter: removing such
      a key never changes what any read returns. */
  lemma GetValueIgnoresUpperKeys(s: Snapshot, k: string, name: string)
    requires HasUpper(k)
    ensures GetValue(s, name) == GetValue(s - {k}, name)
  {
    LowerNormalises(name);
  }

  /** `get_value` does not care about the case of the name asked for. */
  lemma GetValueCaseBlind(s: Snapshot, a: string, b: string)
    requires Lower(a) == Lower(b)
    ensures GetValue(s, a) == GetValue(s, b)
  {
  }

  /** `dev_info.update({k: params[k] for k in params if dev_info.get(k)})`:
      a field takes the incoming value only when it already exists with a truthy
      value. Fields are never added, and a field holding a falsy value is frozen. */
  function Update(s: Snapshot, p: Snapshot): (r: Snapshot)
    ensures r.Keys == s.Keys
    ensures forall k :: k in s && k in p && Truthy(s[k]) ==> r[k] == p[k]
    ensures forall k :: k in s && !Truthy(s[k]) ==> r[k] == s[k]
    ensures forall k :: k in s && k !in p ==> r[k] == s[k]
  {
    map k | k in s :: if k in p && Truthy(s[k]) then p[k] else s[k]
  }

  /** Applying the same incoming record twice is the same as applying it once. */
  lemma UpdateIdempotent(s: Snapshot, p: Snapshot)
    ensures Update(Update(s, p), p) == Update(s, p)
  {
    var u := Update(s, p);
    var uu := Update(u, p);
    forall k | k in s ensures uu[k] == u[k] {
      if k in p && Truthy(s[k]) {
        assert u[k] == p[k];
      }
    }
  }

  /** An incoming record equal to the current snapshot changes nothing; nor
      does an empty one. */
  lemma UpdateNeutral(s: Snapshot)
    ensures Update(s, s) == s
    ensures Update(s, map[]) == s
  {
  }

  /** The snapshot a device holds after a run of updates, oldest first. */
  function UpdateAll(s: Snapshot, ps: seq<Snapshot>): Snapshot
    decreases |ps|
  {
    if ps == [] then s else UpdateAll(Update(s, ps[0]), ps[1..])
  }

  /** Over any run of updates the field set never changes, and a field whose
      value is falsy keeps that exact value forever. */
  lemma {:induction false} UpdateAllFreezes(s: Snapshot, ps: seq<Snapshot>, k: string)
    ensures UpdateAll(s, ps).Keys == s.Keys
    ensures k in s && !Truthy(s[k]) ==> UpdateAll(s, ps)[k] == s[k]
    decreases |ps|
  {
    if ps != [] {
      UpdateAllFreezes(Update(s, ps[0]), ps[1..], k);
    }
  }
}

=== FILE: subscription.dfy ===
/** The subscription registry of pyclimax/subscribe.py: two multimaps, from
    device id to device objects and from device object to callbacks, kept by
    `register` and `unregister`, and the dispatch of a batch of changed devices
    (`_event`, `_event_device`). Device objects are handles with an identity;
    their JSON state lives in a store, because dispatch mutates it. */
module Subscription {
  import opened Wrappers
  import opened Snapshots
  import opened Devices
  import Seqs

  /** A host-supplied callback, identified by the function object it is. */
  type Callback = nat

  /** A device object: its identity, and the `device_id` attribute it was built with. */
  datatype Handle = Handle(ref: nat, deviceId: Value)

  /** `_devices` (id -> device objects) and `_callbacks` (device object ->
      callbacks). Both are defaultdicts: a key may be present with an empty list,
      and that is observable by `_event`. */
  datatype Registry = Registry(devices: map<Value, seq<Handle>>, callbacks: map<Handle, seq<Callback>>)

  /** The current `json_state` of every live device object. */
  type Store = map<Handle, Snapshot>

  /** One call of a callback: which callback, on which device, the state the
      device had when called, and whether the call raised (and was swallowed). */
  datatype Invocation = Invocation(callback: Callback, device: Handle, seen: Snapshot, raised: bool)

  /** Which callbacks raise; nothing else about a callback is observable here. */
  type Raises = (Callback, Handle, Snapshot) -> bool

  const Fresh := Registry(map[], map[])

  function Bucket(r: Registry, id: Value): seq<Handle> {
    if id in r.devices then r.devices[id] else []
  }

  function CallbacksOf(r: Registry, h: Handle): seq<Callback> {
    if h in r.callbacks then r.callbacks[h] else []
  }

  /** The registry's two maps agree: every handle sits in the bucket of its own
      id, once per callback registered for it. */
  ghost predicate WellFormed(r: Registry) {
    && (forall id, h :: id in r.devices && h in r.devices[id] ==> h.deviceId == id)
    && (forall h: Handle :: multiset(Bucket(r, h.deviceId))[h] == |CallbacksOf(r, h)|)
  }

  lemma FreshIsWellFormed()
    ensures WellFormed(Fresh)
  {
  }

  // ---------------------------------------------------------------------------
  // register / unregister

  /** `register(device, callback)`: a missing device changes nothing; otherwise
      the device joins its id bucket and the callback its list, duplicates kept. */
  function Register(r: Registry, device: Option<Handle>, cb: Callback): (r': Registry)
    ensures device.None? ==> r' == r
    ensures device.Some? ==> var h := device.value;
      && h.deviceId in r'.devices && h in r'.callbacks
      && Bucket(r', h.deviceId) == Bucket(r, h.deviceId) + [h]
      && CallbacksOf(r', h) == CallbacksOf(r, h) + [cb]
      && (forall id :: id != h.deviceId ==> Bucket(r', id) == Bucket(r, id))
      && (forall g :: g != h ==> CallbacksOf(r', g) == CallbacksOf(r, g))
      && r'.devices.Keys == r.devices.Keys + {h.deviceId}
      && r'.callbacks.Keys == r.callbacks.Keys + {h}
  {
    match device
    case None => r
    case Some(h) =>
      Registry(r.devices[h.deviceId := Bucket(r, h.deviceId) + [h]],
               r.callbacks[h := CallbacksOf(r, h) + [cb]])
  }

  /** `unregister(device, callback)`: a missing device changes nothing. Else the
      first copy of the callback is removed from the device's list, then the
      first copy of the device from its id bucket; `list.remove` raises
      ValueError when the item is absent, after the defaultdict has created the
      (empty) entry it looked up. Returns the registry and the error raised. */
  function Unregister(r: Registry, device: Option<Handle>, cb: Callback): (out: (Registry, Option<Fault>))
    ensures device.None? ==> out == (r, None)
    ensures device.Some? && cb !in CallbacksOf(r, device.value) ==>
              out.1 == Some(BadValue) && out.0.devices == r.devices
              && (forall g :: CallbacksOf(out.0, g) == CallbacksOf(r, g))
              && out.0.callbacks.Keys == r.callbacks.Keys + {device.value}
    ensures device.Some? && cb in CallbacksOf(r, device.value) ==> var h := device.value;
              && CallbacksOf(out.0, h) == Seqs.RemoveFirst(CallbacksOf(r, h), cb)
              && (forall g :: g != h ==> CallbacksOf(out.0, g) == CallbacksOf(r, g))
              && (forall id :: id != h.deviceId ==> Bucket(out.0, id) == Bucket(r, id))
              && h.deviceId in out.0.devices
              && out.0.devices.Keys == r.devices.Keys + {h.deviceId}
              && out.0.callbacks.Keys == r.callbacks.Keys + {h}
              && (h in Bucket(r, h.deviceId) ==>
                    out.1.None? && Bucket(out.0, h.deviceId) == Seqs.RemoveFirst(Bucket(r, h.deviceId), h))
              && (h !in Bucket(r, h.deviceId) ==>
                    out.1 == Some(BadValue) && Bucket(out.0, h.deviceId) == Bucket(r, h.deviceId))
  {
    match device
    case None => (r, None)
    case Some(h) =>
      var cbs := CallbacksOf(r, h);
      if cb !in cbs then
        (r.(callbacks := r.callbacks[h := cbs]), Some(BadValue))
      else
        var r1 := r.(callbacks := r.callbacks[h := Seqs.RemoveFirst(cbs, cb)]);
        var bucket := Bucket(r1, h.deviceId);
        if h !in bucket then
          (r1.(devices := r1.devices[h.deviceId := bucket]), Some(BadValue))
        else
          (r1.(devices := r1.devices[h.deviceId := Seqs.RemoveFirst(bucket, h)]), None)
  }

  /** Registering keeps the two maps in agreement. */
  lemma RegisterKeepsWellFormed(r: Registry, device: Option<Handle>, cb: Callback)
    requires WellFormed(r)
    ensures WellFormed(Register(r, device, cb))
  {
    if device.Some? {
      var h := device.value;
      var r' := Register(r, device, cb);
      forall g: Handle ensures multiset(Bucket(r', g.deviceId))[g] == |CallbacksOf(r', g)| {
        if g.deviceId == h.deviceId {
          assert multiset(Bucket(r', g.deviceId)) == multiset(Bucket(r, g.deviceId)) + multiset{h};
        }
      }
    }
  }

  /** Unregistering keeps the two maps in agreement, and in an agreeing
      registry it fails exactly when the callback was never registered for
      that device (the second `remove` cannot fail). */
  lemma UnregisterKeepsWellFormed(r: Registry, device: Option<Handle>, cb: Callback)
    requires WellFormed(r)
    ensures WellFormed(Unregister(r, device, cb).0)
    ensures Unregister(r, device, cb).1.Some? <==> device.Some? && cb !in CallbacksOf(r, device.value)
  {
    if device.Some? {
      if cb in CallbacksOf(r, device.value) {
        UnregisterPresentKeeps(r, device.value, cb);
      } else {
        UnregisterAbsentKeeps(r, device.value, cb);
      }
    }
  }

  lemma UnregisterPresentKeeps(r: Registry, h: Handle, cb: Callback)
    requires WellFormed(r) && cb in CallbacksOf(r, h)
    ensures WellFormed(Unregister(r, Some(h), cb).0)
    ensures Unregister(r, Some(h), cb).1.None?
  {
    var r' := Unregister(r, Some(h), cb).0;
    var b := Bucket(r, h.deviceId);
    assert multiset(b)[h] == |CallbacksOf(r, h)| > 0;
    assert h in b;
    var b' := Bucket(r', h.deviceId);
    assert multiset(b') == multiset(b) - multiset{h};
    assert |CallbacksOf(r', h)| == |CallbacksOf(r, h)| - 1;
    assert forall id, g :: id in r'.devices && g in r'.devices[id] ==> g.deviceId == id by {
      forall id, g | id in r'.devices && g in r'.devices[id] ensures g.deviceId == id {
        if id == h.deviceId {
          assert g in Bucket(r', id);
          assert multiset(b')[g] > 0;
          assert g in b;
        } else {
          assert g in Bucket(r, id);
        }
      }
    }
    forall g: Handle ensures multiset(Bucket(r', g.deviceId))[g] == |CallbacksOf(r', g)| {
      if g.deviceId == h.deviceId && g != h {
        assert multiset(b')[g] == multiset(b)[g];
      }
    }
  }

  lemma UnregisterAbsentKeeps(r: Registry, h: Handle, cb: Callback)
    requires WellFormed(r) && cb !in CallbacksOf(r, h)
    ensures WellFormed(Unregister(r, Some(h), cb).0)
    ensures Unregister(r, Some(h), cb).1.Some?
  {
    var r' := Unregister(r, Some(h), cb).0;
    forall g: Handle ensures multiset(Bucket(r', g.deviceId))[g] == |CallbacksOf(r', g)| {
      assert Bucket(r', g.deviceId) == Bucket(r, g.deviceId);
    }
  }

  /** `register` then `unregister` of the same pair succeeds and restores both
      lists as multisets; each list comes back unchanged if its item was not
      there before, and otherwise the item's first copy has moved to the end.
      The id bucket is left in place even if it is now empty. */
  lemma RegisterThenUnregister(r: Registry, h: Handle, cb: Callback)
    ensures var (r2, err) := Unregister(Register(r, Some(h), cb), Some(h), cb);
      && err.None?
      && multiset(CallbacksOf(r2, h)) == multiset(CallbacksOf(r, h))
      && multiset(Bucket(r2, h.deviceId)) == multiset(Bucket(r, h.deviceId))
      && (cb !in CallbacksOf(r, h) ==> CallbacksOf(r2, h) == CallbacksOf(r, h))
      && (cb in CallbacksOf(r, h) ==> CallbacksOf(r2, h) == Seqs.RemoveFirst(CallbacksOf(r, h), cb) + [cb])
      && (h !in Bucket(r, h.deviceId) ==> Bucket(r2, h.deviceId) == Bucket(r, h.deviceId))
      && (h in Bucket(r, h.deviceId) ==> Bucket(r2, h.deviceId) == Seqs.RemoveFirst(Bucket(r, h.deviceId), h) + [h])
      && (forall g :: g != h ==> CallbacksOf(r2, g) == CallbacksOf(r, g))
      && (forall id :: id != h.deviceId ==> Bucket(r2, id) == Bucket(r, id))
      && h.deviceId in r2.devices
  {
    var r1 := Register(r, Some(h), cb);
    Seqs.RemoveAppended(CallbacksOf(r, h), cb);
    Seqs.RemoveAppended(Bucket(r, h.deviceId), h);
    assert cb in CallbacksOf(r1, h);
    assert h in Bucket(r1, h.deviceId);
  }

  // ---------------------------------------------------------------------------
  // Dispatch

  /** Every registered device object is live in the store. */
  ghost predicate Live(r: Registry, store: Store) {
    forall id, h :: id in r.devices && h in r.devices[id] ==> h in store
  }

  /** The `for callback in ...: try: callback(device) except: log` loop. */
  function InvokeAll(cbs: seq<Callback>, h: Handle, s: Snapshot, raises: Raises): (log: seq<Invocation>)
    ensures |log| == |cbs|
    ensures forall i :: 0 <= i < |cbs| ==>
              log[i] == Invocation(cbs[i], h, s, raises(cbs[i], h, s))
    decreases |cbs|
  {
    if cbs == [] then []
    else [Invocation(cbs[0], h, s, raises(cbs[0], h, s))] + InvokeAll(cbs[1..], h, s, raises)
  }

  /** The `k`-th call `_event_device` makes for device object `h` whose state
      was `before`: its `k`-th callback, seeing the state after the update rule. */
  function CallOf(r: Registry, h: Handle, before: Snapshot, k: nat, data: Snapshot, raises: Raises): Invocation
    requires k < |CallbacksOf(r, h)|
  {
    var s := Update(before, data);
    var c := CallbacksOf(r, h)[k];
    Invocation(c, h, s, raises(c, h, s))
  }

  /** `_event_device(device, device_data)`: apply the update rule to the
      device's state, then call each of its callbacks once, in registration
      order, each seeing the updated state, whether or not earlier ones raised. */
  function EventDevice(r: Registry, store: Store, h: Handle, data: Snapshot, raises: Raises): (out: (Store, seq<Invocation>))
    requires h in store
    ensures out.0 == store[h := Update(store[h], data)]
    ensures |out.1| == |CallbacksOf(r, h)|
    ensures forall i :: 0 <= i < |out.1| ==> out.1[i] == CallOf(r, h, store[h], i, data, raises)
  {
    var s := Update(store[h], data);
    (store[h := s], InvokeAll(CallbacksOf(r, h), h, s, raises))
  }

  /** The inner loop of `_event`: every device object in one id bucket, in
      order. Each device object in the bucket ends with its state updated once
      (a second copy of it in the bucket changes nothing more, the update rule
      being idempotent), every callback of every device object in the bucket
      is called on it, seeing that updated state, only such calls are made,
      and nothing outside the bucket is touched. */
  function DispatchBucket(r: Registry, store: Store, hs: seq<Handle>, data: Snapshot, raises: Raises): (out: (Store, seq<Invocation>))
    requires forall h :: h in hs ==> h in store
    ensures out.0.Keys == store.Keys
    ensures forall g :: g in store && g !in hs ==> out.0[g] == store[g]
    ensures forall g :: g in hs ==> out.0[g] == Update(store[g], data)
    ensures forall g, k :: g in hs && 0 <= k < |CallbacksOf(r, g)| ==> CallOf(r, g, store[g], k, data, raises) in out.1
    ensures forall i :: 0 <= i < |out.1| ==> out.1[i].device in hs && out.1[i].callback in CallbacksOf(r, out.1[i].device)
    ensures out.1 == BucketCalls(r, store, hs, data, raises)
    decreases |hs|
  {
    if hs == [] then (store, [])
    else
      var (s1, log1) := EventDevice(r, store, hs[0], data, raises);
      var (s2, log2) := DispatchBucket(r, s1, hs[1..], data, raises);
      BucketStoreStep(store, hs, data, s1, s2);
      BucketCallsStep(r, store, hs, data, raises, log1, s1, log2);
      BucketLogStep(r, store, hs, data, raises, s1, log1, log2);
      (s2, log1 + log2)
  }

  /** The calls a bucket is owed, stated from the store before the bucket is
      dispatched: for each device object in bucket order, each of its callbacks
      once, in registration order, seeing that object's state after one
      application of the update rule. */
  function BucketCalls(r: Registry, store: Store, hs: seq<Handle>, data: Snapshot, raises: Raises): seq<Invocation>
    requires forall h :: h in hs ==> h in store
    decreases |hs|
  {
    if hs == [] then []
    else InvokeAll(CallbacksOf(r, hs[0]), hs[0], Update(store[hs[0]], data), raises) + BucketCalls(r, store, hs[1..], data, raises)
  }

  /** Only the updated state of each device object decides the calls it is owed. */
  lemma {:induction false} BucketCallsFrame(r: Registry, store: Store, s1: Store, hs: seq<Handle>, data: Snapshot, raises: Raises)
    requires forall h :: h in hs ==> h in store && h in s1 && Update(s1[h], data) == Update(store[h], data)
    ensures BucketCalls(r, s1, hs, data, raises) == BucketCalls(r, store, hs, data, raises)
    decreases |hs|
  {
    if hs != [] {
      BucketCallsFrame(r, store, s1, hs[1..], data, raises);
    }
  }

  /** The calls of the first device object of a bucket, then those the rest of
      the bucket makes from the store the first left, are the calls the bucket
      is owed: a second copy of the first device object sees no further change,
      the update rule being idempotent. */
  lemma BucketLogStep(r: Registry, store: Store, hs: seq<Handle>, data: Snapshot, raises: Raises,
                      s1: Store, log1: seq<Invocation>, log2: seq<Invocation>)
    requires hs != [] && forall h :: h in hs ==> h in store
    requires s1 == store[hs[0] := Update(store[hs[0]], data)]
    requires |log1| == |CallbacksOf(r, hs[0])|
    requires forall i :: 0 <= i < |log1| ==> log1[i] == CallOf(r, hs[0], store[hs[0]], i, data, raises)
    requires log2 == BucketCalls(r, s1, hs[1..], data, raises)
    ensures log1 + log2 == BucketCalls(r, store, hs, data, raises)
  {
    var h := hs[0];
    var all := InvokeAll(CallbacksOf(r, h), h, Update(store[h], data), raises);
    assert log1 == all;
    UpdateIdempotent(store[h], data);
    BucketCallsFrame(r, store, s1, hs[1..], data, raises);
  }

  /** Updating the first device object of a bucket, then the rest, updates
      each device object of the bucket once. */
  lemma BucketStoreStep(store: Store, hs: seq<Handle>, data: Snapshot, s1: Store, s2: Store)
    requires hs != [] && forall g :: g in hs ==> g in store
    requires s1 == store[hs[0] := Update(store[hs[0]], data)]
    requires s2.Keys == s1.Keys
    requires forall g :: g in s1 && g !in hs[1..] ==> s2[g] == s1[g]
    requires forall g :: g in hs[1..] ==> s2[g] == Update(s1[g], data)
    ensures forall g :: g in store && g !in hs ==> s2[g] == store[g]
    ensures forall g :: g in hs ==> s2[g] == Update(store[g], data)
  {
    UpdateIdempotent(store[hs[0]], data);
    forall g | g in hs ensures s2[g] == Update(store[g], data) {
      if g != hs[0] {
        assert g in hs[1..];
      }
    }
  }

  /** The calls for the first device object of a bucket, followed by those for
      the rest, are all the calls the bucket is owed. */
  lemma BucketCallsStep(r: Registry, store: Store, hs: seq<Handle>, data: Snapshot, raises: Raises,
                        log1: seq<Invocation>, s1: Store, log2: seq<Invocation>)
    requires hs != [] && forall h :: h in hs ==> h in store
    requires s1 == store[hs[0] := Update(store[hs[0]], data)]
    requires |log1| == |CallbacksOf(r, hs[0])|
    requires forall i :: 0 <= i < |log1| ==> log1[i] == CallOf(r, hs[0], store[hs[0]], i, data, raises)
    requires forall g, k :: g in hs[1..] && 0 <= k < |CallbacksOf(r, g)| ==> CallOf(r, g, s1[g], k, data, raises) in log2
    ensures forall g, k :: g in hs && 0 <= k < |CallbacksOf(r, g)| ==> CallOf(r, g, store[g], k, data, raises) in log1 + log2
  {
    UpdateIdempotent(store[hs[0]], data);
    forall g, k | g in hs && 0 <= k < |CallbacksOf(r, g)|
      ensures CallOf(r, g, store[g], k, data, raises) in log1 + log2
    {
      if g == hs[0] {
        assert log1[k] == CallOf(r, g, store[g], k, data, raises);
      } else {
        assert g in hs[1..];
        assert Update(s1[g], data) == Update(store[g], data);
        assert CallOf(r, g, s1[g], k, data, raises) == CallOf(r, g, store[g], k, data, raises);
      }
    }
  }

  /** The changed devices `_event` gets through: those before the first one
      whose id was never registered. */
  function Processed(r: Registry, changed: seq<Device>): (p: seq<Device>)
    ensures p <= changed
    ensures forall j :: 0 <= j < |p| ==> Get(p[j].state, "id") in r.devices
    ensures |p| < |changed| ==> Get(changed[|p|].state, "id") !in r.devices
    decreases |changed|
  {
    if changed == [] || Get(changed[0].state, "id") !in r.devices then []
    else [changed[0]] + Processed(r, changed[1..])
  }

  /** One device object's state after a run of changes, seen from that object:
      each change under an id whose bucket holds it goes through the update
      rule, in order. */
  function Replay(r: Registry, h: Handle, s: Snapshot, ds: seq<Device>): Snapshot
    decreases |ds|
  {
    if ds == [] then s
    else Replay(r, h, if h in Bucket(r, Get(ds[0].state, "id")) then Update(s, ds[0].state) else s, ds[1..])
  }

  /** `_event(device_data_list)`: for each changed device in order, dispatch
      its state to every device object registered under its id; an id with no
      bucket at all ends the whole batch (`return`), an empty bucket does not.
      Every device object ends with the state its own replay of the processed
      changes gives. */
  function Event(r: Registry, store: Store, changed: seq<Device>, raises: Raises): (out: (Store, seq<Invocation>))
    requires Live(r, store)
    ensures out.0.Keys == store.Keys
    ensures forall g :: g in store ==> out.0[g] == Replay(r, g, store[g], Processed(r, changed))
    ensures forall i :: 0 <= i < |out.1| ==> out.1[i].callback in CallbacksOf(r, out.1[i].device)
    ensures forall i :: 0 <= i < |out.1| ==> InSomeBucket(r, out.1[i].device, changed)
    decreases |changed|
  {
    if changed == [] then (store, [])
    else
      var id := Get(changed[0].state, "id");
      if id !in r.devices then (store, [])
      else
        var (s1, log1) := DispatchBucket(r, store, r.devices[id], changed[0].state, raises);
        var (s2, log2) := Event(r, s1, changed[1..], raises);
        EventStep(r, store, changed, s1, log2);
        (s2, log1 + log2)
  }

  /** The store a run of changes leaves, device object by device object. */
  function StoreAfter(r: Registry, store: Store, ps: seq<Device>): (s: Store)
    ensures s.Keys == store.Keys
  {
    map g | g in store :: Replay(r, g, store[g], ps)
  }

  /** The calls `_event` owes a run of processed changes, from change `j` on:
      for each change in order, the calls its bucket is owed from the store
      the changes before it left. */
  function BatchCalls(r: Registry, store: Store, ps: seq<Device>, j: nat, raises: Raises): seq<Invocation>
    requires Live(r, store) && j <= |ps|
    requires forall k :: 0 <= k < |ps| ==> Get(ps[k].state, "id") in r.devices
    decreases |ps| - j
  {
    if j == |ps| then []
    else
      var id := Get(ps[j].state, "id");
      BucketCalls(r, StoreAfter(r, store, ps[..j]), r.devices[id], ps[j].state, raises) + BatchCalls(r, store, ps, j + 1, raises)
  }

  /** The calls owed after the first change, counted from the original store,
      are those owed to the rest of the run from the store the first change's
      dispatch left. */
  lemma {:induction false} BatchShift(r: Registry, store: Store, s1: Store, ps: seq<Device>, j: nat, raises: Raises)
    requires Live(r, store) && Live(r, s1) && s1.Keys == store.Keys
    requires j < |ps| && forall k :: 0 <= k < |ps| ==> Get(ps[k].state, "id") in r.devices
    requires forall g :: g in store && g !in r.devices[Get(ps[0].state, "id")] ==> s1[g] == store[g]
    requires forall g :: g in r.devices[Get(ps[0].state, "id")] ==> g in store && s1[g] == Update(store[g], ps[0].state)
    ensures BatchCalls(r, store, ps, j + 1, raises) == BatchCalls(r, s1, ps[1..], j, raises)
    decreases |ps| - j
  {
    if j + 1 < |ps| {
      BatchShift(r, store, s1, ps, j + 1, raises);
      assert StoreAfter(r, store, ps[..j + 1]) == StoreAfter(r, s1, ps[1..][..j]) by {
        forall g | g in store ensures Replay(r, g, store[g], ps[..j + 1]) == Replay(r, g, s1[g], ps[1..][..j]) {
          ReplayPrefixStep(r, store, s1, ps, j + 1, g);
        }
      }
      assert ps[1..][j] == ps[j + 1];
    }
  }

  /** The log of the first change's bucket followed by the log of the rest of
      the batch is the log the whole processed run is owed. */
  lemma BatchLogStep(r: Registry, store: Store, s1: Store, changed: seq<Device>, raises: Raises,
                     log1: seq<Invocation>, log2: seq<Invocation>)
    requires Live(r, store) && Live(r, s1) && s1.Keys == store.Keys
    requires changed != [] && Get(changed[0].state, "id") in r.devices
    requires forall g :: g in store && g !in r.devices[Get(changed[0].state, "id")] ==> s1[g] == store[g]
    requires forall g :: g in r.devices[Get(changed[0].state, "id")] ==> g in store && s1[g] == Update(store[g], changed[0].state)
    requires log1 == BucketCalls(r, store, r.devices[Get(changed[0].state, "id")], changed[0].state, raises)
    requires log2 == BatchCalls(r, s1, Processed(r, changed[1..]), 0, raises)
    ensures log1 + log2 == BatchCalls(r, store, Processed(r, changed), 0, raises)
  {
    var ps := Processed(r, changed);
    assert ps == [changed[0]] + Processed(r, changed[1..]);
    assert ps[1..] == Processed(r, changed[1..]);
    assert StoreAfter(r, store, ps[..0]) == store;
    BatchShift(r, store, s1, ps, 0, raises);
  }

  /** What the first change's dispatch and the rest of the batch together
      give: the calls land in some change's bucket, every device object's
      replay of the batch continues from the store the first dispatch left,
      and the log is the one the whole processed run is owed. */
  lemma EventStep(r: Registry, store: Store, changed: seq<Device>, s1: Store, log2: seq<Invocation>)
    requires Live(r, store) && s1.Keys == store.Keys
    requires changed != [] && Get(changed[0].state, "id") in r.devices
    requires forall g :: g in store && g !in r.devices[Get(changed[0].state, "id")] ==> s1[g] == store[g]
    requires forall g :: g in r.devices[Get(changed[0].state, "id")] ==> s1[g] == Update(store[g], changed[0].state)
    requires forall i :: 0 <= i < |log2| ==> InSomeBucket(r, log2[i].device, changed[1..])
    ensures forall i :: 0 <= i < |log2| ==> InSomeBucket(r, log2[i].device, changed)
    ensures forall g :: g in store ==>
              Replay(r, g, store[g], Processed(r, changed)) == Replay(r, g, s1[g], Processed(r, changed[1..]))
  {
    LaterDevicesSeen(r, changed, log2);
    ReplayFirstChange(r, store, s1, changed);
  }

  /** The log of `_event` is exactly the calls the processed run is owed: for
      each processed change in order, each device object of its bucket in
      bucket order, each of that object's callbacks once, in registration
      order, seeing the object's state after all earlier changes and this one. */
  lemma {:induction false} EventLog(r: Registry, store: Store, changed: seq<Device>, raises: Raises)
    requires Live(r, store)
    ensures Event(r, store, changed, raises).1 == BatchCalls(r, store, Processed(r, changed), 0, raises)
    decreases |changed|
  {
    if changed != [] && Get(changed[0].state, "id") in r.devices {
      var id := Get(changed[0].state, "id");
      var (s1, log1) := DispatchBucket(r, store, r.devices[id], changed[0].state, raises);
      assert Live(r, s1);
      EventLog(r, s1, changed[1..], raises);
      var log2 := Event(r, s1, changed[1..], raises).1;
      assert Event(r, store, changed, raises).1 == log1 + log2;
      BatchLogStep(r, store, s1, changed, raises, log1, log2);
    }
  }

  /** The device object sits in the bucket of some change of the batch. */
  ghost predicate InSomeBucket(r: Registry, h: Handle, changed: seq<Device>) {
    exists k :: 0 <= k < |changed| && h in Bucket(r, Get(changed[k].state, "id"))
  }

  /** A call made for the tail of a batch was made for some change of the
      whole batch. */
  lemma LaterDevicesSeen(r: Registry, changed: seq<Device>, log2: seq<Invocation>)
    requires changed != []
    requires forall i :: 0 <= i < |log2| ==> InSomeBucket(r, log2[i].device, changed[1..])
    ensures forall i :: 0 <= i < |log2| ==> InSomeBucket(r, log2[i].device, changed)
  {
    forall i | 0 <= i < |log2| ensures InSomeBucket(r, log2[i].device, changed) {
      var k :| 0 <= k < |changed[1..]| && log2[i].device in Bucket(r, Get(changed[1..][k].state, "id"));
      assert changed[1..][k] == changed[k + 1];
    }
  }

  /** Replaying a batch from the start is replaying its tail from the store
      the first change's dispatch left. */
  lemma ReplayFirstChange(r: Registry, store: Store, s1: Store, changed: seq<Device>)
    requires changed != [] && Get(changed[0].state, "id") in r.devices
    requires s1.Keys == store.Keys
    requires forall g :: g in store && g !in r.devices[Get(changed[0].state, "id")] ==> s1[g] == store[g]
    requires forall g :: g in r.devices[Get(changed[0].state, "id")] ==> g in store && s1[g] == Update(store[g], changed[0].state)
    ensures forall g :: g in store ==>
              Replay(r, g, store[g], Processed(r, changed)) == Replay(r, g, s1[g], Processed(r, changed[1..]))
  {
    forall g | g in store
      ensures Replay(r, g, store[g], Processed(r, changed)) == Replay(r, g, s1[g], Processed(r, changed[1..]))
    {
      ReplayStep(r, store, s1, changed, Processed(r, changed[1..]), g);
    }
  }

  /** The first processed change, seen from one device object, is the
      dispatch to the first change's bucket. */
  lemma ReplayStep(r: Registry, store: Store, s1: Store, changed: seq<Device>, rest: seq<Device>, g: Handle)
    requires changed != [] && Get(changed[0].state, "id") in r.devices
    requires g in store && g in s1
    requires g !in r.devices[Get(changed[0].state, "id")] ==> s1[g] == store[g]
    requires g in r.devices[Get(changed[0].state, "id")] ==> s1[g] == Update(store[g], changed[0].state)
    ensures Replay(r, g, store[g], [changed[0]] + rest) == Replay(r, g, s1[g], rest)
  {
    assert ([changed[0]] + rest)[0] == changed[0] && ([changed[0]] + rest)[1..] == rest;
  }

  /** Completeness of `_event`: for every change the batch gets through, every
      callback of every device object registered under its id is called on
      it, seeing the state that object reached after all earlier changes and
      this one. */
  lemma EveryChangeIsDispatched(r: Registry, store: Store, changed: seq<Device>, raises: Raises, k: nat, h: Handle, c: nat)
    requires Live(r, store)
    requires k < |changed| && forall j :: 0 <= j <= k ==> Get(changed[j].state, "id") in r.devices
    requires h in r.devices[Get(changed[k].state, "id")] && c < |CallbacksOf(r, h)|
    ensures h in store
    ensures CallOf(r, h, Replay(r, h, store[h], changed[..k]), c, changed[k].state, raises) in Event(r, store, changed, raises).1
  {
    var ps := Processed(r, changed);
    ProcessedCovers(r, changed, k);
    assert ps[..k] == changed[..k] && ps[k] == changed[k] by {
      assert ps[..k] == ps[..k + 1][..k] && changed[..k] == changed[..k + 1][..k];
      assert ps[k] == ps[..k + 1][k] && changed[k] == changed[..k + 1][k];
    }
    BatchOwesCall(r, store, ps, k, raises, h, c);
    EventLog(r, store, changed, raises);
  }

  /** The calls owed a run of processed changes include, for change `k`, every
      callback of every device object in its bucket, on the state the changes
      before it left. */
  lemma BatchOwesCall(r: Registry, store: Store, ps: seq<Device>, k: nat, raises: Raises, h: Handle, c: nat)
    requires Live(r, store) && k < |ps|
    requires forall i :: 0 <= i < |ps| ==> Get(ps[i].state, "id") in r.devices
    requires h in r.devices[Get(ps[k].state, "id")] && c < |CallbacksOf(r, h)|
    ensures h in store
    ensures CallOf(r, h, Replay(r, h, store[h], ps[..k]), c, ps[k].state, raises) in BatchCalls(r, store, ps, 0, raises)
  {
    var before := StoreAfter(r, store, ps[..k]);
    var hs := r.devices[Get(ps[k].state, "id")];
    BucketCallsHave(r, before, hs, ps[k].state, raises, h, c);
    BatchCallsHave(r, store, ps, 0, k, raises, CallOf(r, h, before[h], c, ps[k].state, raises));
  }

  /** The batch gets through every change up to the first whose id has no bucket. */
  lemma {:induction false} ProcessedCovers(r: Registry, changed: seq<Device>, k: nat)
    requires k < |changed| && forall j :: 0 <= j <= k ==> Get(changed[j].state, "id") in r.devices
    ensures k < |Processed(r, changed)| && Processed(r, changed)[..k + 1] == changed[..k + 1]
    decreases k
  {
    var ps := Processed(r, changed);
    assert Get(changed[0].state, "id") in r.devices;
    assert ps == [changed[0]] + Processed(r, changed[1..]);
    if k > 0 {
      forall j | 0 <= j <= k - 1 ensures Get(changed[1..][j].state, "id") in r.devices {
        assert changed[1..][j] == changed[j + 1];
      }
      ProcessedCovers(r, changed[1..], k - 1);
      Seqs.PrefixCons(changed, k + 1);
      Seqs.PrefixCons(ps, k + 1);
    }
  }

  /** Every call a bucket is owed is in its log: each device object of the
      bucket has each of its callbacks called, seeing its updated state. */
  lemma {:induction false} BucketCallsHave(r: Registry, store: Store, hs: seq<Handle>, data: Snapshot, raises: Raises, h: Handle, c: nat)
    requires forall g :: g in hs ==> g in store
    requires h in hs && c < |CallbacksOf(r, h)|
    ensures CallOf(r, h, store[h], c, data, raises) in BucketCalls(r, store, hs, data, raises)
    decreases |hs|
  {
    var first := InvokeAll(CallbacksOf(r, hs[0]), hs[0], Update(store[hs[0]], data), raises);
    if h == hs[0] {
      assert first[c] == CallOf(r, h, store[h], c, data, raises);
    } else {
      assert h in hs[1..];
      BucketCallsHave(r, store, hs[1..], data, raises, h, c);
    }
  }

  /** Every call owed to change `k` of a processed run is in the run's log. */
  lemma {:induction false} BatchCallsHave(r: Registry, store: Store, ps: seq<Device>, j: nat, k: nat, raises: Raises, x: Invocation)
    requires Live(r, store) && j <= k < |ps|
    requires forall i :: 0 <= i < |ps| ==> Get(ps[i].state, "id") in r.devices
    requires x in BucketCalls(r, StoreAfter(r, store, ps[..k]), r.devices[Get(ps[k].state, "id")], ps[k].state, raises)
    ensures x in BatchCalls(r, store, ps, j, raises)
    decreases k - j
  {
    if j < k {
      BatchCallsHave(r, store, ps, j + 1, k, raises, x);
    }
  }

  /** The state a device object reaches over the first `k` changes, replayed
      from the store the first change's dispatch left. */
  lemma ReplayPrefixStep(r: Registry, store: Store, s1: Store, changed: seq<Device>, k: nat, h: Handle)
    requires 0 < k <= |changed| && Get(changed[0].state, "id") in r.devices
    requires h in store && h in s1
    requires h !in r.devices[Get(changed[0].state, "id")] ==> s1[h] == store[h]
    requires h in r.devices[Get(changed[0].state, "id")] ==> s1[h] == Update(store[h], changed[0].state)
    ensures Replay(r, h, store[h], changed[..k]) == Replay(r, h, s1[h], changed[1..][..k - 1])
  {
    Seqs.PrefixCons(changed, k);
    ReplayStep(r, store, s1, changed, changed[1..][..k - 1], h);
  }

  /** Nothing after a changed device whose id was never registered is
      dispatched: the batch behaves as if it ended just before that device. */
  lemma {:induction false} UnknownIdEndsBatch(r: Registry, store: Store, changed: seq<Device>, raises: Raises, k: nat)
    requires Live(r, store)
    requires k < |changed| && Get(changed[k].state, "id") !in r.devices
    ensures Event(r, store, changed, raises) == Event(r, store, changed[..k], raises)
    decreases k
  {
    if k == 0 {
      assert changed[..0] == [];
    } else {
      var id := Get(changed[0].state, "id");
      assert changed[..k][0] == changed[0];
      if id in r.devices {
        var (s1, log1) := DispatchBucket(r, store, r.devices[id], changed[0].state, raises);
        assert Live(r, s1);
        UnknownIdEndsBatch(r, s1, changed[1..], raises, k - 1);
        assert changed[..k][1..] == changed[1..][..k - 1];
      }
    }
  }

  /** A changed device whose id has an empty bucket is simply passed over: the
      batch behaves as if it were not there. */
  lemma {:induction false} EmptyBucketIsSkipped(r: Registry, store: Store, pre: seq<Device>, d: Device, post: seq<Device>, raises: Raises)
    requires Live(r, store)
    requires Get(d.state, "id") in r.devices && r.devices[Get(d.state, "id")] == []
    ensures Event(r, store, pre + [d] + post, raises) == Event(r, store, pre + post, raises)
    decreases |pre|
  {
    var all := pre + [d] + post;
    if pre == [] {
      assert all[0] == d && all[1..] == post;
      assert pre + post == post;
      assert DispatchBucket(r, store, [], d.state, raises) == (store, []);
      var (s2, log2) := Event(r, store, post, raises);
      assert [] + log2 == log2;
    } else {
      var id := Get(pre[0].state, "id");
      assert all[0] == pre[0] && (pre + post)[0] == pre[0];
      assert all[1..] == pre[1..] + [d] + post;
      assert (pre + post)[1..] == pre[1..] + post;
      if id in r.devices {
        var (s1, log1) := DispatchBucket(r, store, r.devices[id], pre[0].state, raises);
        assert Live(r, s1);
        EmptyBucketIsSkipped(r, s1, pre[1..], d, post, raises);
      }
    }
  }

  /** Once a callback's only registration for a device is removed, no later
      dispatch calls it for that device. */
  lemma UnregisteredCallbackIsNeverCalled(r: Registry, h: Handle, c: Callback, store: Store, changed: seq<Device>, raises: Raises)
    requires multiset(CallbacksOf(r, h))[c] == 1
    requires Live(Unregister(r, Some(h), c).0, store)
    ensures var log := Event(Unregister(r, Some(h), c).0, store, changed, raises).1;
      forall i :: 0 <= i < |log| ==> !(log[i].device == h && log[i].callback == c)
  {
    var r' := Unregister(r, Some(h), c).0;
    assert c in CallbacksOf(r, h);
    assert multiset(CallbacksOf(r', h))[c] == 0;
    assert c !in CallbacksOf(r', h);
  }

  /** `register` followed by `unregister` of a device whose id had no bucket
      leaves an empty bucket behind, which changes dispatch: a batch that used
      to end at that id now passes over it. */
  lemma EmptyBucketLeftBehind(r: Registry, h: Handle, cb: Callback, store: Store, d: Device, rest: seq<Device>, raises: Raises)
    requires h.deviceId !in r.devices && cb !in CallbacksOf(r, h)
    requires Live(r, store)
    requires Get(d.state, "id") == h.deviceId
    ensures var r2 := Unregister(Register(r, Some(h), cb), Some(h), cb).0;
      && Event(r, store, [d] + rest, raises) == (store, [])
      && Live(r2, store)
      && Event(r2, store, [d] + rest, raises) == Event(r2, store, rest, raises)
  {
    var r2 := Unregister(Register(r, Some(h), cb), Some(h), cb).0;
    RoundTripStaysLive(r, h, cb, store);
    UnknownFirstDispatchesNothing(r, store, d, rest, raises);
    EmptyFirstIsSkipped(r2, store, d, rest, raises);
  }

  lemma UnknownFirstDispatchesNothing(r: Registry, store: Store, d: Device, rest: seq<Device>, raises: Raises)
    requires Live(r, store) && Get(d.state, "id") !in r.devices
    ensures Event(r, store, [d] + rest, raises) == (store, [])
  {
    UnknownIdEndsBatch(r, store, [d] + rest, raises, 0);
    assert ([d] + rest)[..0] == [];
  }

  lemma EmptyFirstIsSkipped(r: Registry, store: Store, d: Device, rest: seq<Device>, raises: Raises)
    requires Live(r, store)
    requires Get(d.state, "id") in r.devices && r.devices[Get(d.state, "id")] == []
    ensures Event(r, store, [d] + rest, raises) == Event(r, store, rest, raises)
  {
    EmptyBucketIsSkipped(r, store, [], d, rest, raises);
    assert [] + [d] + rest == [d] + rest && [] + rest == rest;
  }

  /** The register/unregister round trip on a fresh id leaves that id's bucket
      empty and adds no handle the store lacks. */
  lemma RoundTripStaysLive(r: Registry, h: Handle, cb: Callback, store: Store)
    requires h.deviceId !in r.devices && cb !in CallbacksOf(r, h)
    requires Live(r, store)
    ensures var r2 := Unregister(Register(r, Some(h), cb), Some(h), cb).0;
      Bucket(r2, h.deviceId) == [] && h.deviceId in r2.devices && Live(r2, store)
  {
    var r2 := Unregister(Register(r, Some(h), cb), Some(h), cb).0;
    RegisterThenUnregister(r, h, cb);
    forall id, g | id in r2.devices && g in r2.devices[id] ensures g in store {
      assert id != h.deviceId;
      assert g in Bucket(r, id);
    }
  }
}

=== FILE: text.dfy ===
/** The handful of Python string operations the client relies on:
    `needle in hay`, `str.strip(chars)`, `str.lower()`, `str(int)` and `int(str)`.
    Only ASCII behaviour is modelled (see README). */
module Text {
  import opened Wrappers

  /** Python's `needle in hay` on two strings: some suffix of `hay` starts with `needle`.
      The empty string is in every string. */
  ghost predicate IsSubstring(needle: string, hay: string) {
    exists i :: 0 <= i <= |hay| && needle <= hay[i..]
  }

  /** Executable substring test, scanning `hay` from the left. */
  function Contains(hay: string, needle: string): (b: bool)
    ensures b <==> IsSubstring(needle, hay)
    decreases |hay|
  {
    if needle <= hay then
      assert hay[0..] == hay;
      true
    else if hay == [] then
      false
    else
      var b := Contains(hay[1..], needle);
      assert forall i :: 1 <= i <= |hay| ==> hay[1..][i - 1..] == hay[i..];
      b
  }

  // ---------------------------------------------------------------------------
  // str.strip(chars)

  /** `s.lstrip(cs)`: drop the longest prefix made only of characters in `cs`. */
  function StripLeft(s: string, cs: set<char>): (r: string)
    ensures |r| <= |s| && r == s[|s| - |r|..]
    ensures r != [] ==> r[0] !in cs
    decreases |s|
  {
    if s != [] && s[0] in cs then StripLeft(s[1..], cs) else s
  }

  /** `s.rstrip(cs)`: drop the longest suffix made only of characters in `cs`. */
  function StripRight(s: string, cs: set<char>): (r: string)
    ensures |r| <= |s| && r == s[..|r|]
    ensures r != [] ==> r[|r| - 1] !in cs
    decreases |s|
  {
    if s != [] && s[|s| - 1] in cs then StripRight(s[..|s| - 1], cs) else s
  }

  /** `s.strip(cs)`: both ends. */
  function Strip(s: string, cs: set<char>): (r: string)
    ensures |r| <= |s|
    ensures r != [] ==> r[0] !in cs && r[|r| - 1] !in cs
  {
    StripRight(StripLeft(s, cs), cs)
  }

  predicate AllIn(s: string, cs: set<char>) {
    forall i :: 0 <= i < |s| ==> s[i] in cs
  }

  /** `lstrip` removes exactly a leading run of stripped characters. */
  lemma {:induction false} StripLeftPast(a: string, rest: string, cs: set<char>)
    requires AllIn(a, cs)
    requires rest != [] ==> rest[0] !in cs
    ensures StripLeft(a + rest, cs) == rest
    decreases |a|
  {
    if a == [] {
      assert a + rest == rest;
    } else {
      assert (a + rest)[0] == a[0];
      assert (a + rest)[1..] == a[1..] + rest;
      StripLeftPast(a[1..], rest, cs);
    }
  }

  /** `rstrip` removes exactly a trailing run of stripped characters. */
  lemma {:induction false} StripRightPast(m: string, b: string, cs: set<char>)
    requires AllIn(b, cs)
    requires m != [] ==> m[|m| - 1] !in cs
    ensures StripRight(m + b, cs) == m
    decreases |b|
  {
    if b == [] {
      assert m + b == m;
    } else {
      var s := m + b;
      assert s[|s| - 1] == b[|b| - 1];
      assert s[..|s| - 1] == m + b[..|b| - 1];
      StripRightPast(m, b[..|b| - 1], cs);
    }
  }

  /** Strip is characterised by its result: whatever sits between two runs of
      stripped characters, and itself neither starts nor ends with one, is what
      Strip returns. */
  lemma StripSurrounded(a: string, m: string, b: string, cs: set<char>)
    requires AllIn(a, cs) && AllIn(b, cs)
    requires m != [] ==> m[0] !in cs && m[|m| - 1] !in cs
    ensures Strip(a + m + b, cs) == m
  {
    if m == [] {
      assert a + m + b == (a + b) + [];
      assert AllIn(a + b, cs) by {
        forall i | 0 <= i < |a + b| ensures (a + b)[i] in cs {
          if i < |a| { assert (a + b)[i] == a[i]; } else { assert (a + b)[i] == b[i - |a|]; }
        }
      }
      StripLeftPast(a + b, [], cs);
    } else {
      assert a + m + b == a + (m + b);
      StripLeftPast(a, m + b, cs);
      StripRightPast(m, b, cs);
    }
  }

  /** A string that neither starts nor ends with a stripped character is left alone. */
  lemma StripUntouched(s: string, cs: set<char>)
    requires s != [] ==> s[0] !in cs && s[|s| - 1] !in cs
    ensures Strip(s, cs) == s
  {
    StripSurrounded([], s, [], cs);
    assert [] + s + [] == s;
  }

  // ---------------------------------------------------------------------------
  // str.lower()

  function LowerChar(c: char): char {
    if 'A' <= c <= 'Z' then (c as int + 32) as char else c
  }

  /** ASCII lower-casing. */
  function Lower(s: string): (r: string)
    ensures |r| == |s|
    ensures forall i :: 0 <= i < |s| ==> r[i] == LowerChar(s[i])
  {
    seq(|s|, i requires 0 <= i < |s| => LowerChar(s[i]))
  }

  predicate HasUpper(s: string) {
    exists i :: 0 <= i < |s| && 'A' <= s[i] <= 'Z'
  }

  /** Lower-casing leaves no upper-case letter and is idempotent. */
  lemma LowerNormalises(s: string)
    ensures !HasUpper(Lower(s))
    ensures Lower(Lower(s)) == Lower(s)
  {
  }

  // ---------------------------------------------------------------------------
  // str(int)

  predicate IsDigit(c: char) {
    '0' <= c <= '9'
  }

  function DigitChar(d: nat): (c: char)
    requires d < 10
    ensures IsDigit(c)
  {
    ('0' as int + d) as char
  }

  function DigitOf(c: char): nat {
    if IsDigit(c) then c as int - '0' as int else 0
  }

  /** Decimal digits of a natural number, most significant first, no leading zero. */
  function NatDigits(n: nat): (r: string)
    ensures |r| >= 1
    ensures forall i :: 0 <= i < |r| ==> IsDigit(r[i])
    ensures r[0] == '0' ==> r == "0"
    decreases n
  {
    if n < 10 then [DigitChar(n)] else NatDigits(n / 10) + [DigitChar(n % 10)]
  }

  /** Python's `str(n)` for an integer. */
  function DecimalString(n: int): string {
    if n < 0 then "-" + NatDigits(-n) else NatDigits(n)
  }

  // ---------------------------------------------------------------------------
  // int(str)

  /** The characters Python's `int()` trims from both ends (the ASCII ones). */
  const Whitespace: set<char> :=
    {' ', '\t', '\n', '\r', 11 as char, 12 as char, 28 as char, 29 as char, 30 as char, 31 as char}

  /** A run of decimal digits in which single underscores may separate digits. */
  predicate DigitGroups(t: string) {
    && |t| > 0
    && IsDigit(t[0])
    && IsDigit(t[|t| - 1])
    && (forall i :: 0 <= i < |t| ==> IsDigit(t[i]) || t[i] == '_')
    && (forall i, j :: 0 <= i < |t| && 0 <= j < |t| && j == i + 1 ==> !(t[i] == '_' && t[j] == '_'))
  }

  /** The number a digit run denotes; underscores are skipped. */
  function DigitsValue(t: string): nat
    decreases |t|
  {
    if t == [] then 0
    else if t[|t| - 1] == '_' then DigitsValue(t[..|t| - 1])
    else 10 * DigitsValue(t[..|t| - 1]) + DigitOf(t[|t| - 1])
  }

  /** Python's `int(s)` on a string as Python 3.6 to 3.10 reads it, restricted
      to ASCII: surrounding whitespace, an optional sign, then digit groups
      joined by single underscores. None stands for the ValueError. */
  function ParseInt(s: string): Option<int> {
    ParseTrimmed(Strip(s, Whitespace))
  }

  /** `int()` once the surrounding whitespace is gone. */
  function ParseTrimmed(t: string): Option<int> {
    if |t| > 0 && (t[0] == '+' || t[0] == '-') then
      if DigitGroups(t[1..]) then
        var v: int := DigitsValue(t[1..]);
        Some(if t[0] == '-' then -v else v)
      else None
    else if DigitGroups(t) then Some(DigitsValue(t))
    else None
  }

  lemma {:induction false} NatDigitsValue(n: nat)
    ensures DigitsValue(NatDigits(n)) == n
    decreases n
  {
    var r := NatDigits(n);
    if n < 10 {
      assert r[..0] == [];
    } else {
      NatDigitsValue(n / 10);
      assert r[..|r| - 1] == NatDigits(n / 10);
      assert r[|r| - 1] == DigitChar(n % 10);
    }
  }

  /** `int(str(n)) == n` for every natural number. */
  lemma DecimalRoundTrip(n: nat)
    ensures ParseInt(DecimalString(n)) == Some(n)
  {
    var d := NatDigits(n);
    NatDigitsValue(n);
    ParseDigits(d);
  }

  lemma ParseDigits(d: string)
    requires |d| >= 1 && forall i :: 0 <= i < |d| ==> IsDigit(d[i])
    ensures ParseInt(d) == Some(DigitsValue(d))
  {
    DigitRunIsGroups(d);
    ParseUnpadded(d);
    ParseUnsigned(d);
  }

  lemma ParseUnpadded(d: string)
    requires |d| >= 1 && IsDigit(d[0]) && IsDigit(d[|d| - 1])
    ensures ParseInt(d) == ParseTrimmed(d)
  {
    StripUntouched(d, Whitespace);
  }

  lemma ParseUnsigned(d: string)
    requires DigitGroups(d)
    ensures ParseTrimmed(d) == Some(DigitsValue(d))
  {
    assert IsDigit(d[0]);
  }

  lemma DigitRunIsGroups(d: string)
    requires |d| >= 1 && forall i :: 0 <= i < |d| ==> IsDigit(d[i])
    ensures DigitGroups(d)
  {
    assert IsDigit(d[0]) && IsDigit(d[|d| - 1]);
  }
}

=== FILE: wrappers.dfy ===
/** Failure-carrying results used throughout the model, and the faults a
    Python call in the client can raise. */
module Wrappers {

  datatype Option<+T> = None | Some(value: T) {
    function GetOr(default: T): T {
      match this
      case Some(v) => v
      case None => default
    }
  }

  datatype Result<+R> = Success(value: R) | Failure(error: Fault)

  /** The exceptions the client code raises or lets escape.
      Transport: a requests.RequestException (socket error, timeout, HTTP status).
      Protocol: a PyclimaxError (empty body, undecodable body, unexpected shape).
      The other three are Python built-in errors that nothing in the client catches,
      except the poll loop, which treats them as fatal. */
  datatype Fault =
    | Transport
    | Protocol
    | TypeMismatch     // TypeError, e.g. `'On' in None`
    | MissingAttribute // AttributeError, e.g. `None.strip(...)`, `[].get(...)`
    | BadValue         // ValueError, e.g. `list.remove(x)` with x absent, a failed JSON decode
}
